=== FILE: README.md ===
# Finance metrics: exact-arithmetic core

A Dafny model of the deterministic, rational part of the performance-metrics
library `function_finance_metrics.py`:

- the bars-per-year table of `compute_data_points_per_year`;
- the drawdown curve (`drawdown`), its minimum (`max_drawdown`), the
  percentage-return branch of `drawdown_from_rtns`, and the windowed
  drawdown `max_drawdown_single`;
- the equal-weight buy-and-hold portfolio `compute_eqw`;
- benchmark excess returns with the missing-date check (`_reindex_dates`,
  `log_excess`), `maxzero`, and the lower partial moment `LPM`, on the
  numpy array path;
- the closed-form helpers `annualized_log_return`, `annualized_pct_return`
  and `adjusted_sharpe`.

Numbers are exact Dafny `real`s. Where numpy or pandas would produce an
infinity or a NaN (a division by a zero running high, a window with no
finite value), and where returns and benchmarks may hold NaN or
infinities, values are `Floats.Float`:
`Finite(v) | PosInf | NegInf | NaN`. The IEEE special values are kept, but
rounding and signed zero are not. Python exceptions become
`Results.Error` values.

Modules, one per concern:

| module | file | contents |
|---|---|---|
| `Results` | results.dfy | `Result`, `Option`, and the error kinds (ValueError, AssertionError, IndexError, ZeroDivisionError, shape mismatch) |
| `Floats` | floats.dfy | IEEE-style special values and their arithmetic, the non-NaN order `Le`, integer powers |
| `Reductions` | reductions.dfy | the sequence predicates `Positive`, `NonZero` and `NonDecreasing`, expanding and rolling max, NaN-skipping (rolling) min, sums, mean, `nanmean` |
| `Timeframes` | timeframes.dfy | `compute_data_points_per_year` |
| `Drawdowns` | drawdowns.dfy | `drawdown`, `max_drawdown`, `drawdown_from_rtns`, `max_drawdown_single` |
| `Portfolio` | portfolio.dfy | `compute_eqw` |
| `Excess` | excess.dfy | `_reindex_dates`, `log_excess`, `maxzero`, `LPM` |
| `Annualize` | annualize.dfy | `annualized_log_return`, `annualized_pct_return`, `adjusted_sharpe` |

Library behaviour the model relies on:

- pandas `expanding().max()` is a running maximum.
- `rolling(w, min_periods=1)` uses partial windows at the start.
- Rolling min and max read an infinity as a missing value.
- A rolling window of width below 1 (with `min_periods=1`) raises ValueError.
- `min()` and `np.nanmin` skip NaN.
- `np.nanmean` divides the NaN-zeroed sum by the number of non-NaN entries.
- numpy broadcasting pairs a length-1 array or a scalar with every entry.
- `np.delete(rets, 0)` on an empty array raises IndexError.

The library's year length `trading_days` is 365 days (line 33).

## Model

| member | source | states |
|---|---|---|
| Timeframes.DataPointsPerYear | function_finance_metrics.py:36-51 | accepted exactly for the six labels 1m, 5m, 10m, 30m, 1h, 1d, ValueError for every other string; the count times the bar length (read independently from the label) is the minutes of a 365-day year |
| Timeframes.BarMinutesOfSupported | function_finance_metrics.py:37-48 | the six accepted labels name bars of 1, 5, 10, 30, 60 and 1440 minutes |
| Timeframes.DataPointsPerYearTable | function_finance_metrics.py:36-51 | the counts are 525600, 105120, 52560, 17520, 8760 and 365; "15m", "1H" and the empty string are rejected |
| Reductions.RunningMax | function_finance_metrics.py:763 | the expanding maximum at i bounds every value up to i and is one of them |
| Reductions.RunningMaxMonotone | function_finance_metrics.py:763 | the expanding maximum never decreases |
| Reductions.RollingMax | function_finance_metrics.py:730 | the trailing-window maximum at i bounds every value of its window (partial at the start) and is one of them |
| Reductions.UnitRollingMax | function_finance_metrics.py:730 | with a window of width 1 the rolling maximum is the series itself |
| Reductions.NanMin | function_finance_metrics.py:745 | the NaN-skipping minimum is NaN exactly when every entry is NaN (the empty series included), otherwise it is an entry and lies below every non-NaN entry |
| Reductions.RollingNanMin | function_finance_metrics.py:732 | the rolling minimum at i lies below every finite value of its window and is either NaN or one of those finite values |
| Reductions.CountNaN | function_finance_metrics.py:164-165 | the NaN count is 0 exactly when no entry is NaN and equals the length exactly when all are |
| Reductions.CountNaNAppend | function_finance_metrics.py:164-165 | the count is additive over concatenation, so with its single-entry values it is the number of NaN entries |
| Reductions.NanMean | function_finance_metrics.py:305 | nanmean is NaN on an all-NaN input and keeps non-negativity; without infinities and with at least one non-NaN entry it is the arithmetic mean of the non-NaN values, which on finite input is the mean of all of them |
| Drawdowns.Relative | function_finance_metrics.py:764 | for a non-zero level the result is `x / level - 1`; for a zero level it is NaN when x is 0 and the infinity of x's sign otherwise |
| Drawdowns.RelativeBelowLevel | function_finance_metrics.py:764 | below a positive level the relative distance lies in (-1, 0] and is 0 exactly at the level |
| Drawdowns.RunningMaxAtNewHigh | function_finance_metrics.py:763 | the running high at i equals the curve exactly when i is a new high |
| Drawdowns.Drawdown | function_finance_metrics.py:752-765 | same length as the equity; entry i is `equity[i] / high[i] - 1` for the expanding maximum `high` when that is non-zero, and NaN or -inf when it is 0; for positive equity every entry lies in (-1, 0] and is 0 exactly at a new high |
| Drawdowns.NonDecreasingHasZeroDrawdown | function_finance_metrics.py:752-765 | a non-decreasing curve without zeros has drawdown 0 everywhere |
| Drawdowns.ZeroDrawdownIsNonDecreasing | function_finance_metrics.py:752-765 | a positive curve whose drawdown is 0 everywhere is non-decreasing |
| Drawdowns.MaxDrawdown | function_finance_metrics.py:744-745 | NaN for an empty curve; otherwise an entry of the drawdown curve and below all of it; for a positive non-empty curve it lies in (-1, 0] and is 0 exactly when the curve is non-decreasing |
| Drawdowns.CumGrowth | function_finance_metrics.py:781-782 | the compounded curve has the returns' length, starts at `1 + rtns[0]` and grows each step by that step's return; it is positive when every return exceeds -1 and non-decreasing when no return is negative |
| Drawdowns.GrowthRecoversReturns | function_finance_metrics.py:781-782 | each step of the compounded curve grows by exactly that step's return |
| Drawdowns.DrawdownFromReturns | function_finance_metrics.py:768-783 | same length as the returns; entry i is `g[i] / high[i] - 1` for the compounded curve `g = (1 + rtns).cumprod()` and its expanding maximum `high` (NaN or -inf where that high is 0); every entry in (-1, 0] when every return exceeds -1; all zeros when no return is negative |
| Drawdowns.MaxDrawdownSingle | function_finance_metrics.py:727-733 | IndexError on an empty input, ValueError for a window below 1, otherwise one entry fewer than the input; entry i is the trailing-window minimum of the point drawdowns of `rets[1:]`: it lies below every finite point drawdown of its window and is NaN or one of them; for positive inputs every entry lies in (-1, 0] |
| Drawdowns.PointDrawdowns | function_finance_metrics.py:729-731 | entry i is `x[i] / windowmax[i] - 1` for the trailing-window maximum when that is non-zero, NaN when both are 0 and -inf for a negative point over a zero maximum; the series keeps the length, lies in (-1, 0] for positive inputs and is all zeros for a window of 1 |
| Drawdowns.RollingMinOfDrawdowns | function_finance_metrics.py:732 | a rolling minimum of values in (-1, 0] stays in (-1, 0] |
| Drawdowns.UnitWindowIsZero | function_finance_metrics.py:727-733 | with a window of 1 the result is all zeros |
| Drawdowns.WideRollingMaxIsRunningMax | function_finance_metrics.py:730 | a window as wide as the series turns the rolling maximum into the expanding maximum |
| Drawdowns.WholeWindowMinIsNanMin | function_finance_metrics.py:732 | over a window spanning a finite series the last rolling minimum is the minimum of the whole series |
| Drawdowns.WideWindowIsMaxDrawdown | function_finance_metrics.py:727-733 | when the window spans the whole series, the last entry equals max_drawdown of the input without its first point |
| Portfolio.ComputeEqw | function_finance_metrics.py:116-126 | IndexError exactly for an empty price array; the three series have lengths T, T-1 and T; with positive initial prices the account starts at exactly 1e6 and the cumulative return at 0 |
| Portfolio.HoldingsAreCapitalTimesMeanRelative | function_finance_metrics.py:118-122 | the portfolio is worth 1e6 times the average price relative of the assets |
| Portfolio.InitialHoldings | function_finance_metrics.py:118-122 | at the first row the holdings are worth exactly the capital |
| Portfolio.EqwTracksPriceRelatives | function_finance_metrics.py:118-123 | every account value is 1e6 times the average price relative, and every cumulative return is that average minus 1 |
| Portfolio.EqwStepIsInvertedRatio | function_finance_metrics.py:125 | step t is the average relative at t over the average relative at t+1, minus 1 |
| Portfolio.InvertedStepExample | function_finance_metrics.py:125 | a single asset whose price doubles gets the step -50% instead of +100% |
| Portfolio.ForwardStepsCompound | function_finance_metrics.py:125 | compounding the forward step returns replays the account value relative to its start |
| Portfolio.WrittenStepIsReciprocal | function_finance_metrics.py:125 | step t of the model's step series (`av[:-1] / av[1:] - 1`) is `1 / (1 + forward[t]) - 1`: its growth factor is the reciprocal of the forward step's |
| Excess.ReindexDates | function_finance_metrics.py:146-167 | on the array path, succeeds exactly when no entry is NaN and then returns the source unchanged; otherwise fails with the (positive) NaN count |
| Excess.LogExcess | function_finance_metrics.py:170-201 | a NaN benchmark fails with its NaN count; otherwise succeeds exactly when the shapes broadcast, with the broadcast length; entry i is the broadcast return minus the broadcast benchmark entry under IEEE subtraction (infinite benchmark entries included), and adding a finite benchmark entry back gives the paired return |
| Excess.NaNReturnsPassThrough | function_finance_metrics.py:199-201 | NaN returns are not checked: they pass into the excess series |
| Excess.MaxZero | function_finance_metrics.py:281-282 | NaN exactly for NaN; otherwise non-negative, at least the input, and either the input or 0 |
| Excess.MaxZeroIdempotent | function_finance_metrics.py:281-282 | applying maxzero twice is applying it once |
| Excess.LPM | function_finance_metrics.py:285-305 | succeeds exactly when log_excess does, with its error otherwise; the result is NaN or non-negative |
| Excess.LpmIsLowerPartialMoment | function_finance_metrics.py:298-305 | on finite returns and a finite scalar target LPM equals the mean of `max(target - r, 0) ** moment` |
| Excess.LpmZeroAboveTarget | function_finance_metrics.py:298-305 | when every return reaches the target, LPM of any positive moment is 0 |
| Excess.LpmMomentZero | function_finance_metrics.py:298-305 | moment 0 gives 1 on any non-empty array, NaN returns included |
| Annualize.AnnualizedLogReturn | function_finance_metrics.py:681-697 | ann_factor defaults to the 365-day year; ZeroDivisionError exactly when days or ann_factor is 0; otherwise the result times the number of years is the total return |
| Annualize.OneYearIsUnchanged | function_finance_metrics.py:695-697 | over exactly one year (days equal to ann_factor, or 365 days with the default) the total return comes back unchanged |
| Annualize.AnnualizedPctReturn | function_finance_metrics.py:663-678 | factor defaults to 1 and then returns the input unchanged; factor 0 gives 0; a return above -1 stays above -1; a non-negative return is not reduced by a factor of 1 or more |
| Annualize.PctReturnCompounds | function_finance_metrics.py:663-678 | annualising over a + b periods compounds a periods and b periods |
| Annualize.PctReturnUnitFactor | function_finance_metrics.py:676-678 | with factor 1 the input comes back unchanged |
| Annualize.PctReturnCountsGrowthTwice | function_finance_metrics.py:663-678 | a +50% period passed as the documented growth factor 1.5 comes out as +150% |
| Annualize.GrowthReturnIntended | function_finance_metrics.py:663-678 | the corrected function gives the growth factor minus 1 over one period, and equals the as-written one applied to the return |
| Annualize.AdjustedSharpe | function_finance_metrics.py:528-542 | returns sr when skew and excess kurtosis are 0, and 0 when sr is 0 |
| Annualize.AdjustedSharpeOdd | function_finance_metrics.py:542 | negating both sr and skew negates the result |
| Annualize.AdjustedSharpeRewardsKurtosis | function_finance_metrics.py:542 | as written, excess kurtosis 24 doubles a Sharpe ratio of 1 |
| Annualize.PezierWhiteSharpe | function_finance_metrics.py:528-542 | the corrected ratio returns sr when skew and excess kurtosis are 0, and 0 when sr is 0 |
| Annualize.PezierWhitePenalisesTails | function_finance_metrics.py:528-542 | for a positive ratio, more excess kurtosis never raises the corrected adjusted ratio |

## Left out

- NaN and infinite inputs to `drawdown`, `max_drawdown`, `drawdown_from_rtns`, `max_drawdown_single` and `compute_eqw` are not modelled: equity, returns and prices are finite reals. pandas' expanding and rolling maxima and `cumprod` skip NaN, and that behaviour on missing inputs is not part of this model. Only the NaN and infinities these functions produce themselves (a zero running high, an empty curve, a window of missing values) are.
- Reductions.NanMean: when an infinity is among the entries, only the all-NaN and non-negativity facts are stated, not the infinite result.
- Floating point: all arithmetic is exact. Rounding, overflow of large finite values to infinity, and signed zero are not modelled.
- The log branch of `drawdown_from_rtns` (`np.exp(returns.cumsum())`) is left out: `exp` has no exact counterpart over the reals.
- pandas DataFrames: every curve is a single column. Multi-column frames reduce column by column, and only one column is modelled.
- `_reindex_dates` on two pandas objects reindexes by date labels. Only the array path is modelled, and the `target` argument is unused there.
- Excess.LPM: the pandas path (`clip(lower=0)` then `.mean()`) is left out. Its link to the reference definition is proved only for finite returns with a finite scalar target.
- `log_excess`'s `debug` flag and `compute_eqw`'s `indx1`/`indx2` are unused by the code and are not parameters of the model.
- Annualize.AnnualizedPctReturn: `factor` is a natural number. Fractional powers need real exponentiation, which is not available over the reals.
- LPM: `moment` is a natural number, for the same reason.
- Drawdowns.MaxDrawdownSingle: `factor` is an integer. pandas' rejection of non-integer windows is not modelled.
- Annualize.AnnualizedLogReturn: ZeroDivisionError follows Python float scalars. numpy scalars would give an infinity or NaN instead.
- The rest of the library is not part of this model. That covers:
  - Sharpe, Sortino, Kappa and Calmar ratios, log and geometric returns, and tail ratios, which need sqrt, log, exp or percentiles;
  - the scipy and statsmodels calls;
  - `calc_annualized_ret`, whose result is rounded;
  - the aggregation wrappers, plotting and report writing;
  - `config_api.py`.

## Findings

| source | as written | input that shows it | evidently intended | confidence | as-written member | corrected member |
|---|---|---|---|---|---|---|
| function_finance_metrics.py:676-678 | `total_return += 1` before the power, although the doc-comment and the caller at line 55 already pass the growth factor `1 + r` | growth factor 1.5 (+50%) with factor 1 gives 1.5 (+150%) | `growth ** factor - 1`, giving 0.5 | high, not executed | Annualize.PctReturnCountsGrowthTwice | Annualize.GrowthReturnIntended |
| function_finance_metrics.py:542 | `+ excess_kurtosis / 24.0 * sr ** 2` | sr = 1, skew = 0, excess kurtosis = 24 gives 2.0, double the unadjusted ratio | Pezier and White subtract the kurtosis term, so fat tails lower the ratio | high, not executed | Annualize.AdjustedSharpeRewardsKurtosis | Annualize.PezierWhitePenalisesTails |
| function_finance_metrics.py:125 | `account_value_eqw[:-1] / account_value_eqw[1:] - 1`, each value over the next one | a single asset priced p then 2p gives the step -0.5 instead of +1.0 | `av[1:] / av[:-1] - 1`, the return of each step | medium, not executed | Portfolio.InvertedStepExample | Portfolio.ForwardStepsCompound |

=== FILE: annualize.dfy ===
/** The closed-form scalar helpers: `annualized_log_return`,
    `annualized_pct_return` and `adjusted_sharpe`. Scalars are Python
    floats, so a division by zero raises instead of giving inf. */
module Annualize {
  import opened Results
  import opened Floats

  /** Default year length of the library, in days (`trading_days`). */
  const TradingDays: real := 365.0

  /** `annualized_log_return(total_return, days, ann_factor)`: the total log
      return spread over `days / ann_factor` years. */
  function AnnualizedLogReturn(totalReturn: real, days: real, annFactor: real := TradingDays): (r: Result<real>)
    ensures r.Ok? <==> days != 0.0 && annFactor != 0.0
    ensures r.Err? ==> r.error == ZeroDivision
    ensures r.Ok? ==> r.value * (days / annFactor) == totalReturn
  {
    if annFactor == 0.0 then Err(ZeroDivision)
    else
      var years := days / annFactor;
      if years == 0.0 then Err(ZeroDivision)
      else
        var ann := totalReturn / years;
        assert ann * years == totalReturn;
        Ok(ann)
  }

  /** Over exactly one year of data, annualising changes nothing. */
  lemma OneYearIsUnchanged(totalReturn: real, days: real)
    requires days != 0.0
    ensures AnnualizedLogReturn(totalReturn, days, days) == Ok(totalReturn)
    ensures AnnualizedLogReturn(totalReturn, TradingDays) == Ok(totalReturn)
  {
    var years := days / days;
    assert years == 1.0;
    assert totalReturn / years == totalReturn;
    assert TradingDays / TradingDays == 1.0;
  }

  /** `annualized_pct_return(total_return, factor)` with a natural factor,
      as written: `(total_return + 1) ** factor - 1`. */
  function AnnualizedPctReturn(totalReturn: real, factor: nat := 1): (r: real)
    ensures factor == 0 ==> r == 0.0
    ensures factor == 1 ==> r == totalReturn
    ensures totalReturn > -1.0 ==> r > -1.0
    ensures totalReturn >= 0.0 && factor >= 1 ==> r >= totalReturn
  {
    GrowthPowerBounds(totalReturn + 1.0, factor);
    RealPow(totalReturn + 1.0, factor) - 1.0
  }

  lemma GrowthPowerBounds(g: real, factor: nat)
    ensures factor == 0 ==> RealPow(g, factor) == 1.0
    ensures factor == 1 ==> RealPow(g, factor) == g
    ensures g > 0.0 ==> RealPow(g, factor) > 0.0
    ensures g >= 1.0 && factor >= 1 ==> RealPow(g, factor) >= g
  {
    RealPowOne(g);
    if g > 0.0 {
      RealPowPositive(g, factor);
    }
    if g >= 1.0 && factor >= 1 {
      RealPowAtLeastBase(g, factor);
    }
  }

  /** Annualising over a + b periods compounds the growth of a periods and
      of b periods. */
  lemma PctReturnCompounds(totalReturn: real, a: nat, b: nat)
    ensures 1.0 + AnnualizedPctReturn(totalReturn, a + b)
      == (1.0 + AnnualizedPctReturn(totalReturn, a)) * (1.0 + AnnualizedPctReturn(totalReturn, b))
  {
    RealPowAdd(totalReturn + 1.0, a, b);
  }

  /** With factor 1 the input comes back unchanged: the 1 added is taken
      off again. */
  lemma PctReturnUnitFactor(totalReturn: real)
    ensures AnnualizedPctReturn(totalReturn, 1) == totalReturn
  {
    RealPowOne(totalReturn + 1.0);
  }

  /** A +50% period passed as the growth factor 1.5, as the doc-comment and
      the caller in aggregate_performance_ndarray do, comes out as +150%
      rather than +50%. */
  lemma PctReturnCountsGrowthTwice()
    ensures AnnualizedPctReturn(1.5, 1) == 1.5
    ensures AnnualizedPctReturn(1.5, 1) != 1.5 - 1.0
  {
    PctReturnUnitFactor(1.5);
  }

  /** The evident intent: a growth factor (1.5 for +50%) raised to the
      factor, minus 1. */
  function AnnualizedGrowthReturn(growth: real, factor: nat): real {
    RealPow(growth, factor) - 1.0
  }

  /** Over one period the corrected function returns the percentage gain of
      the growth factor, and it equals the as-written function applied to
      the return rather than the growth factor. */
  lemma GrowthReturnIntended(growth: real, factor: nat)
    ensures AnnualizedGrowthReturn(growth, 1) == growth - 1.0
    ensures AnnualizedGrowthReturn(growth, factor) == AnnualizedPctReturn(growth - 1.0, factor)
  {
    RealPowOne(growth);
  }

  /** `adjusted_sharpe(sr, skew, excess_kurtosis)` as written:
      `sr * (1 + skew / 6 * sr + excess_kurtosis / 24 * sr ** 2)`. */
  function AdjustedSharpe(sr: real, skew: real, excessKurtosis: real): (r: real)
    ensures skew == 0.0 && excessKurtosis == 0.0 ==> r == sr
    ensures sr == 0.0 ==> r == 0.0
  {
    sr * (1.0 + (skew / 6.0) * sr + excessKurtosis / 24.0 * (sr * sr))
  }

  /** The adjustment is odd in the Sharpe ratio and the skew together: a
      mirrored return distribution gets the mirrored adjusted ratio. */
  lemma AdjustedSharpeOdd(sr: real, skew: real, excessKurtosis: real)
    ensures AdjustedSharpe(-sr, -skew, excessKurtosis) == -AdjustedSharpe(sr, skew, excessKurtosis)
  {
  }

  /** As written, excess kurtosis raises a positive ratio: one unit of Sharpe
      with excess kurtosis 24 doubles, where fat tails should cost. */
  lemma AdjustedSharpeRewardsKurtosis()
    ensures AdjustedSharpe(1.0, 0.0, 24.0) == 2.0
    ensures AdjustedSharpe(1.0, 0.0, 24.0) > AdjustedSharpe(1.0, 0.0, 0.0)
  {
  }

  /** The Pezier and White (2006) adjusted Sharpe ratio,
      `sr * (1 + skew / 6 * sr - excess_kurtosis / 24 * sr ** 2)`. */
  function PezierWhiteSharpe(sr: real, skew: real, excessKurtosis: real): (r: real)
    ensures skew == 0.0 && excessKurtosis == 0.0 ==> r == sr
    ensures sr == 0.0 ==> r == 0.0
  {
    sr * (1.0 + (skew / 6.0) * sr - excessKurtosis / 24.0 * (sr * sr))
  }

  /** For a positive ratio the corrected adjustment penalises fat tails:
      more excess kurtosis never raises it. */
  lemma PezierWhitePenalisesTails(sr: real, skew: real, k1: real, k2: real)
    requires sr > 0.0 && k1 <= k2
    ensures PezierWhiteSharpe(sr, skew, k2) <= PezierWhiteSharpe(sr, skew, k1)
  {
    var base := sr * (1.0 + (skew / 6.0) * sr);
    var cube := sr * (sr * sr);
    MulNonNegative(sr, sr);
    MulNonNegative(sr, sr * sr);
    PezierWhiteExpanded(sr, skew, k1);
    PezierWhiteExpanded(sr, skew, k2);
    MulMonotone(cube, k1 / 24.0, k2 / 24.0);
  }

  /** The corrected adjustment as a base term minus a kurtosis penalty. */
  lemma PezierWhiteExpanded(sr: real, skew: real, k: real)
    ensures PezierWhiteSharpe(sr, skew, k) == sr * (1.0 + (skew / 6.0) * sr) - sr * (sr * sr) * (k / 24.0)
  {
    var a, b := 1.0 + (skew / 6.0) * sr, k / 24.0 * (sr * sr);
    assert PezierWhiteSharpe(sr, skew, k) == sr * (a - b);
    assert sr * (a - b) == sr * a - sr * b;
  }

  lemma MulNonNegative(a: real, b: real)
    requires a >= 0.0 && b >= 0.0
    ensures a * b >= 0.0
  {
  }

  lemma MulMonotone(a: real, x: real, y: real)
    requires a >= 0.0 && x <= y
    ensures a * x <= a * y
  {
    MulNonNegative(a, y - x);
    assert a * (y - x) == a * y - a * x;
  }
}

=== FILE: drawdowns.dfy ===
/** Drawdown curves of an equity curve: `drawdown`, `max_drawdown`, the
    percentage-return branch of `drawdown_from_rtns`, and the windowed
    `max_drawdown_single`. Equity and rtns are finite reals; the curves
    hold Floats because a zero running high divides by zero. */
module Drawdowns {
  import opened Results
  import opened Floats
  import opened Reductions

  /** `s[i]` is at least every earlier value: a new running high. */
  predicate IsNewHigh(s: seq<real>, i: nat)
    requires i < |s|
  {
    forall j :: 0 <= j <= i ==> s[j] <= s[i]
  }

  /** `x / level - 1.0` as numpy computes it: the relative distance of `x`
      from `level`, non-finite when the level is 0. */
  function Relative(x: real, level: real): (r: Float)
    ensures r.Finite? <==> level != 0.0
    ensures level != 0.0 ==> r == Finite(x / level - 1.0)
    ensures level == 0.0 ==> r == (if x == 0.0 then NaN else Inf(x > 0.0))
  {
    Sub(Div(Finite(x), Finite(level)), Finite(1.0))
  }

  /** At its own non-zero level, the relative distance is 0. */
  lemma RelativeAtLevel(x: real)
    requires x != 0.0
    ensures Relative(x, x) == Finite(0.0)
  {
    assert x / x == 1.0;
  }

  /** Below a positive level, the relative distance lies in (-1, 0] and is 0
      exactly at the level. */
  lemma RelativeBelowLevel(x: real, level: real)
    requires 0.0 < x <= level
    ensures Relative(x, level).Finite?
    ensures -1.0 < Relative(x, level).v <= 0.0
    ensures Relative(x, level).v == 0.0 <==> x == level
  {
    var q := x / level;
    assert x == q * level;
    assert q > 0.0;
    assert q <= 1.0;
  }

  /** The running high at i equals the curve exactly when i is a new high. */
  lemma RunningMaxAtNewHigh(s: seq<real>, i: nat)
    requires i < |s|
    ensures RunningMax(s)[i] == s[i] <==> IsNewHigh(s, i)
  {
    var high := RunningMax(s);
    if IsNewHigh(s, i) {
      var j :| 0 <= j < i + 1 && 0 <= j < |s| && s[j] == high[i];
      assert s[j] <= s[i];
    }
  }

  /** pandas `drawdown`: entry i is `equity[i] / high[i] - 1.0`, where
      `high` is the expanding maximum of the curve. */
  function Drawdown(equity: seq<real>): (dd: seq<Float>)
    ensures |dd| == |equity|
    ensures RelativeValues(equity, RunningMax(equity), dd)
    ensures forall i :: 0 <= i < |equity| ==> (dd[i].Finite? <==> RunningMax(equity)[i] != 0.0)
    ensures Positive(equity) ==>
      forall i :: 0 <= i < |equity| ==>
        && dd[i].Finite?
        && -1.0 < dd[i].v <= 0.0
        && (dd[i].v == 0.0 <==> IsNewHigh(equity, i))
  {
    var high := RunningMax(equity);
    var dd := RelativeTo(equity, high);
    DrawdownOfPositive(equity, high, dd);
    dd
  }

  /** Each point's relative distance to its level. */
  function RelativeTo(x: seq<real>, level: seq<real>): (dd: seq<Float>)
    requires |level| == |x|
    ensures |dd| == |x|
    ensures forall i :: 0 <= i < |x| ==> dd[i] == Relative(x[i], level[i])
  {
    seq(|x|, i requires 0 <= i < |x| => Relative(x[i], level[i]))
  }

  /** Entry i of `dd` is `x[i] / level[i] - 1` where the level is non-zero;
      where it is zero, numpy's `0 / 0` gives NaN and a negative point over
      a zero level gives -inf. */
  predicate RelativeValues(x: seq<real>, level: seq<real>, dd: seq<Float>)
    requires |level| == |x| && |dd| == |x|
  {
    && (forall i :: 0 <= i < |x| && level[i] != 0.0 ==> dd[i] == Finite(x[i] / level[i] - 1.0))
    && (forall i :: 0 <= i < |x| && level[i] == 0.0 ==> dd[i] == (if x[i] == 0.0 then NaN else NegInf))
  }

  /** Entry-wise `x[i] / high[i] - 1` against a level at or above the point,
      with a zero level read as numpy reads a division by zero. */
  lemma RelativeSeries(x: seq<real>, high: seq<real>, dd: seq<Float>)
    requires |high| == |x| && |dd| == |x|
    requires forall i :: 0 <= i < |x| ==> x[i] <= high[i]
    requires forall i :: 0 <= i < |x| ==> dd[i] == Relative(x[i], high[i])
    ensures RelativeValues(x, high, dd)
  {
    forall i | 0 <= i < |x| && high[i] == 0.0 ensures dd[i] == (if x[i] == 0.0 then NaN else NegInf) {
      assert dd[i] == Relative(x[i], high[i]);
    }
  }

  lemma DrawdownOfPositive(equity: seq<real>, high: seq<real>, dd: seq<Float>)
    requires high == RunningMax(equity)
    requires |dd| == |equity|
    requires forall i :: 0 <= i < |equity| ==> dd[i] == Relative(equity[i], high[i])
    ensures RelativeValues(equity, high, dd)
    ensures forall i :: 0 <= i < |equity| ==> (dd[i].Finite? <==> high[i] != 0.0)
    ensures Positive(equity) ==>
      forall i :: 0 <= i < |equity| ==>
        && dd[i].Finite?
        && -1.0 < dd[i].v <= 0.0
        && (dd[i].v == 0.0 <==> IsNewHigh(equity, i))
  {
    RelativeSeries(equity, high, dd);
    if Positive(equity) {
      forall i | 0 <= i < |equity|
        ensures dd[i].Finite? && -1.0 < dd[i].v <= 0.0 && (dd[i].v == 0.0 <==> IsNewHigh(equity, i))
      {
        RelativeBelowLevel(equity[i], high[i]);
        RunningMaxAtNewHigh(equity, i);
      }
    }
  }

  /** A non-decreasing curve with no zero point never falls below its high:
      its drawdown is 0 everywhere. */
  lemma NonDecreasingHasZeroDrawdown(equity: seq<real>)
    requires NonDecreasing(equity) && NonZero(equity)
    ensures forall i :: 0 <= i < |equity| ==> Drawdown(equity)[i] == Finite(0.0)
  {
    var high := RunningMax(equity);
    forall i | 0 <= i < |equity| ensures Drawdown(equity)[i] == Finite(0.0) {
      RunningMaxAtNewHigh(equity, i);
      RelativeAtLevel(equity[i]);
    }
  }

  /** A positive curve whose drawdown is 0 everywhere is non-decreasing. */
  lemma ZeroDrawdownIsNonDecreasing(equity: seq<real>)
    requires Positive(equity)
    requires forall i :: 0 <= i < |equity| ==> Drawdown(equity)[i] == Finite(0.0)
    ensures NonDecreasing(equity)
  {
    forall i, j | 0 <= i <= j < |equity| ensures equity[i] <= equity[j] {
      assert Drawdown(equity)[j].v == 0.0;
      assert IsNewHigh(equity, j);
    }
  }

  /** pandas `max_drawdown`: the least value of the drawdown curve, NaN
      entries skipped. */
  function MaxDrawdown(equity: seq<real>): (r: Float)
    ensures |equity| == 0 ==> r.NaN?
    ensures !r.NaN? ==> r in Drawdown(equity)
    ensures forall i :: 0 <= i < |equity| && !Drawdown(equity)[i].NaN? ==> Le(r, Drawdown(equity)[i])
    ensures Positive(equity) && |equity| > 0 ==>
      && r.Finite?
      && -1.0 < r.v <= 0.0
      && (r.v == 0.0 <==> NonDecreasing(equity))
  {
    MinOfPositiveDrawdown(equity);
    NanMin(Drawdown(equity))
  }

  lemma MinOfPositiveDrawdown(equity: seq<real>)
    ensures Positive(equity) && |equity| > 0 ==>
      && NanMin(Drawdown(equity)).Finite?
      && -1.0 < NanMin(Drawdown(equity)).v <= 0.0
      && (NanMin(Drawdown(equity)).v == 0.0 <==> NonDecreasing(equity))
  {
    if Positive(equity) && |equity| > 0 {
      PositiveMinOfDrawdown(equity);
    }
  }

  lemma PositiveMinOfDrawdown(equity: seq<real>)
    requires Positive(equity) && |equity| > 0
    ensures NanMin(Drawdown(equity)).Finite?
    ensures -1.0 < NanMin(Drawdown(equity)).v <= 0.0
    ensures NanMin(Drawdown(equity)).v == 0.0 <==> NonDecreasing(equity)
  {
    var dd := Drawdown(equity);
    var r := NanMin(dd);
    MinOfDrawdownBounds(dd);
    if r.v == 0.0 {
      ZeroMinIsNonDecreasing(equity, r);
    }
    if NonDecreasing(equity) {
      NonDecreasingHasZeroDrawdown(equity);
      MinOfZeroDrawdown(dd);
    }
  }

  lemma MinOfDrawdownBounds(dd: seq<Float>)
    requires |dd| > 0
    requires forall i :: 0 <= i < |dd| ==> dd[i].Finite? && -1.0 < dd[i].v <= 0.0
    ensures NanMin(dd).Finite?
    ensures -1.0 < NanMin(dd).v <= 0.0
  {
    assert !dd[0].NaN?;
    var k :| 0 <= k < |dd| && dd[k] == NanMin(dd);
  }


  lemma MinOfZeroDrawdown(dd: seq<Float>)
    requires |dd| > 0
    requires forall i :: 0 <= i < |dd| ==> dd[i] == Finite(0.0)
    ensures NanMin(dd) == Finite(0.0)
  {
    assert !dd[0].NaN?;
    var k :| 0 <= k < |dd| && dd[k] == NanMin(dd);
  }

  lemma ZeroMinIsNonDecreasing(equity: seq<real>, r: Float)
    requires Positive(equity)
    requires r == Finite(0.0)
    requires forall i :: 0 <= i < |equity| && !Drawdown(equity)[i].NaN? ==> Le(r, Drawdown(equity)[i])
    ensures NonDecreasing(equity)
  {
    var dd := Drawdown(equity);
    forall i | 0 <= i < |equity| ensures dd[i] == Finite(0.0) {
      assert Le(r, dd[i]);
    }
    ZeroDrawdownIsNonDecreasing(equity);
  }

  /** Product of `1 + r` over a sequence of percentage returns. */
  function Compound(rtns: seq<real>): real {
    if |rtns| == 0 then 1.0
    else Compound(rtns[..|rtns| - 1]) * (1.0 + rtns[|rtns| - 1])
  }

  lemma PositiveProduct(a: real, b: real)
    requires a > 0.0 && b > 0.0
    ensures a * b > 0.0
  {
  }

  lemma {:induction false} CompoundPositive(rtns: seq<real>)
    requires forall k :: 0 <= k < |rtns| ==> rtns[k] > -1.0
    ensures Compound(rtns) > 0.0
  {
    if |rtns| > 0 {
      CompoundPositive(rtns[..|rtns| - 1]);
      PositiveProduct(Compound(rtns[..|rtns| - 1]), 1.0 + rtns[|rtns| - 1]);
    }
  }

  /** numpy `(1 + returns).cumprod()`: the equity curve that starts from 1
      and compounds each percentage return. */
  function CumGrowth(rtns: seq<real>): (g: seq<real>)
    ensures |g| == |rtns|
    ensures |rtns| > 0 ==> g[0] == 1.0 + rtns[0]
    ensures forall i :: 0 < i < |rtns| ==> g[i] == g[i - 1] * (1.0 + rtns[i])
    ensures (forall k :: 0 <= k < |rtns| ==> rtns[k] > -1.0) ==> Positive(g)
    ensures (forall k :: 0 <= k < |rtns| ==> rtns[k] >= 0.0) ==> NonDecreasing(g)
  {
    var g := seq(|rtns|, i requires 0 <= i < |rtns| => Compound(rtns[..i + 1]));
    GrowthSteps(rtns, g);
    GrowthShape(rtns, g);
    g
  }

  lemma GrowthShape(rtns: seq<real>, g: seq<real>)
    requires |g| == |rtns|
    requires forall i :: 0 <= i < |rtns| ==> g[i] == Compound(rtns[..i + 1])
    ensures (forall k :: 0 <= k < |rtns| ==> rtns[k] > -1.0) ==> Positive(g)
    ensures (forall k :: 0 <= k < |rtns| ==> rtns[k] >= 0.0) ==> NonDecreasing(g)
  {
    if forall k :: 0 <= k < |rtns| ==> rtns[k] > -1.0 {
      forall i | 0 <= i < |rtns| ensures g[i] > 0.0 {
        CompoundPositive(rtns[..i + 1]);
      }
    }
    if forall k :: 0 <= k < |rtns| ==> rtns[k] >= 0.0 {
      GrowthNonDecreasing(rtns, g);
    }
  }

  /** The compounded curve starts at `1 + rtns[0]` and each point is the
      previous one grown by that step's return. */
  lemma GrowthSteps(rtns: seq<real>, g: seq<real>)
    requires |g| == |rtns|
    requires forall i :: 0 <= i < |rtns| ==> g[i] == Compound(rtns[..i + 1])
    ensures |rtns| > 0 ==> g[0] == 1.0 + rtns[0]
    ensures forall i :: 0 < i < |rtns| ==> g[i] == g[i - 1] * (1.0 + rtns[i])
  {
    if |rtns| > 0 {
      assert rtns[..1][..0] == [];
      assert Compound(rtns[..1]) == Compound(rtns[..1][..0]) * (1.0 + rtns[0]);
    }
    forall i | 0 < i < |rtns| ensures g[i] == g[i - 1] * (1.0 + rtns[i]) {
      assert rtns[..i + 1][..i] == rtns[..i];
    }
  }

  lemma GrowthNonDecreasing(rtns: seq<real>, g: seq<real>)
    requires |g| == |rtns|
    requires forall i :: 0 <= i < |rtns| ==> g[i] == Compound(rtns[..i + 1])
    requires forall k :: 0 <= k < |rtns| ==> rtns[k] >= 0.0
    ensures NonDecreasing(g)
  {
    forall i | 0 <= i < |rtns| ensures g[i] > 0.0 {
      CompoundPositive(rtns[..i + 1]);
    }
    forall i | 0 < i < |rtns| ensures g[i - 1] <= g[i] {
      assert rtns[..i + 1][..i] == rtns[..i];
      assert g[i] == g[i - 1] * (1.0 + rtns[i]);
    }
    forall i, j | 0 <= i <= j < |rtns| ensures g[i] <= g[j] {
      StepsChain(g, i, j);
    }
  }

  lemma {:induction false} StepsChain(g: seq<real>, i: nat, j: nat)
    requires i <= j < |g|
    requires forall k :: 0 < k < |g| ==> g[k - 1] <= g[k]
    ensures g[i] <= g[j]
    decreases j - i
  {
    if i < j {
      StepsChain(g, i + 1, j);
    }
  }

  /** Each step of the compounded curve grows by exactly the return of that
      step, so the returns can be read back from the curve. */
  lemma GrowthRecoversReturns(rtns: seq<real>, i: nat)
    requires 0 < i < |rtns|
    requires forall k :: 0 <= k < |rtns| ==> rtns[k] != -1.0
    ensures CumGrowth(rtns)[i - 1] != 0.0
    ensures CumGrowth(rtns)[i] / CumGrowth(rtns)[i - 1] - 1.0 == rtns[i]
  {
    var g := CumGrowth(rtns);
    CompoundNonZero(rtns[..i]);
    var a, b := g[i - 1], 1.0 + rtns[i];
    assert a == Compound(rtns[..i]);
    assert g[i] == a * b;
    ProductQuotient(a, b);
  }

  lemma ProductQuotient(a: real, b: real)
    requires a != 0.0
    ensures (a * b) / a == b
  {
  }

  lemma {:induction false} CompoundNonZero(rtns: seq<real>)
    requires forall k :: 0 <= k < |rtns| ==> rtns[k] != -1.0
    ensures Compound(rtns) != 0.0
  {
    if |rtns| > 0 {
      CompoundNonZero(rtns[..|rtns| - 1]);
    }
  }

  /** `drawdown_from_rtns(returns, log=False)`: the drawdown of the curve
      compounded from percentage returns. */
  function DrawdownFromReturns(rtns: seq<real>): (dd: seq<Float>)
    ensures |dd| == |rtns|
    ensures RelativeValues(CumGrowth(rtns), RunningMax(CumGrowth(rtns)), dd)
    ensures (forall k :: 0 <= k < |rtns| ==> rtns[k] > -1.0) ==>
      forall i :: 0 <= i < |rtns| ==> dd[i].Finite? && -1.0 < dd[i].v <= 0.0
    ensures (forall k :: 0 <= k < |rtns| ==> rtns[k] >= 0.0) ==>
      forall i :: 0 <= i < |rtns| ==> dd[i] == Finite(0.0)
  {
    var g := CumGrowth(rtns);
    GrowthDrawdownFacts(rtns, g, Drawdown(g));
    Drawdown(g)
  }

  lemma GrowthDrawdownFacts(rtns: seq<real>, g: seq<real>, dd: seq<Float>)
    requires g == CumGrowth(rtns) && dd == Drawdown(g)
    ensures (forall k :: 0 <= k < |rtns| ==> rtns[k] > -1.0) ==>
      forall i :: 0 <= i < |rtns| ==> dd[i].Finite? && -1.0 < dd[i].v <= 0.0
    ensures (forall k :: 0 <= k < |rtns| ==> rtns[k] >= 0.0) ==>
      forall i :: 0 <= i < |rtns| ==> dd[i] == Finite(0.0)
  {
    if forall k :: 0 <= k < |rtns| ==> rtns[k] > -1.0 {
      assert Positive(g);
    }
    if forall k :: 0 <= k < |rtns| ==> rtns[k] >= 0.0 {
      assert NonDecreasing(g) && Positive(g);
      NonDecreasingHasZeroDrawdown(g);
    }
  }

  /** `max_drawdown_single(rets, factor)`: drop the first element, divide
      each point by the maximum of its trailing window of width `factor`,
      subtract 1, and take the trailing-window minimum of that. */
  function MaxDrawdownSingle(rets: seq<real>, factor: int): (r: Result<seq<Float>>)
    ensures r.Ok? <==> |rets| >= 1 && factor >= 1
    ensures |rets| == 0 ==> r == Err(IndexOutOfBounds)
    ensures |rets| >= 1 && factor < 1 ==> r == Err(InvalidWindow)
    ensures r.Ok? ==> |r.value| == |rets| - 1
    ensures r.Ok? ==> forall i, j ::
      0 <= i < |r.value| && WindowStart(i, factor) <= j <= i && PointDrawdowns(rets[1..], factor)[j].Finite? ==>
        Le(r.value[i], PointDrawdowns(rets[1..], factor)[j])
    ensures r.Ok? ==> forall i :: 0 <= i < |r.value| ==>
      r.value[i].NaN? || Occurs(PointDrawdowns(rets[1..], factor), WindowStart(i, factor), i + 1, r.value[i])
    ensures r.Ok? && Positive(rets[1..]) ==>
      forall i :: 0 <= i < |r.value| ==> r.value[i].Finite? && -1.0 < r.value[i].v <= 0.0
  {
    if |rets| == 0 then Err(IndexOutOfBounds)
    else if factor < 1 then Err(InvalidWindow)
    else
      var x := rets[1..];
      var dd := PointDrawdowns(x, factor);
      var out := RollingNanMin(dd, factor);
      assert Positive(x) ==> forall i :: 0 <= i < |out| ==> out[i].Finite? && -1.0 < out[i].v <= 0.0 by {
        if Positive(x) {
          RollingMinOfDrawdowns(dd, factor);
        }
      }
      Ok(out)
  }

  /** A trailing-window minimum of drawdowns in (-1, 0] stays in (-1, 0]. */
  lemma RollingMinOfDrawdowns(dd: seq<Float>, factor: nat)
    requires factor >= 1
    requires forall i :: 0 <= i < |dd| ==> dd[i].Finite? && -1.0 < dd[i].v <= 0.0
    ensures forall i :: 0 <= i < |dd| ==>
      RollingNanMin(dd, factor)[i].Finite? && -1.0 < RollingNanMin(dd, factor)[i].v <= 0.0
  {
    var out := RollingNanMin(dd, factor);
    forall i | 0 <= i < |out| ensures out[i].Finite? && -1.0 < out[i].v <= 0.0 {
      assert Le(out[i], dd[i]);
      var k :| WindowStart(i, factor) <= k < i + 1 && 0 <= k < |dd| && dd[k] == out[i];
    }
  }

  /** The `rets / Roll_Max - 1.0` step of max_drawdown_single. */
  function PointDrawdowns(x: seq<real>, factor: nat): (dd: seq<Float>)
    requires factor >= 1
    ensures |dd| == |x|
    ensures RelativeValues(x, RollingMax(x, factor), dd)
    ensures Positive(x) ==> forall i :: 0 <= i < |x| ==> dd[i].Finite? && -1.0 < dd[i].v <= 0.0
    ensures factor == 1 && NonZero(x) ==> forall i :: 0 <= i < |x| ==> dd[i] == Finite(0.0)
  {
    var high := RollingMax(x, factor);
    var dd := RelativeTo(x, high);
    RelativeSeries(x, high, dd);
    PointDrawdownsFacts(x, factor, high, dd);
    dd
  }

  lemma PointDrawdownsFacts(x: seq<real>, factor: nat, high: seq<real>, dd: seq<Float>)
    requires factor >= 1
    requires high == RollingMax(x, factor)
    requires |dd| == |x|
    requires forall i :: 0 <= i < |x| ==> dd[i] == Relative(x[i], high[i])
    ensures Positive(x) ==> forall i :: 0 <= i < |x| ==> dd[i].Finite? && -1.0 < dd[i].v <= 0.0
    ensures factor == 1 && NonZero(x) ==> forall i :: 0 <= i < |x| ==> dd[i] == Finite(0.0)
  {
    if Positive(x) {
      PointDrawdownsOfPositive(x, factor, high, dd);
    }
    if factor == 1 && NonZero(x) {
      PointDrawdownsOfUnitWindow(x, high, dd);
    }
  }

  lemma PointDrawdownsOfPositive(x: seq<real>, factor: nat, high: seq<real>, dd: seq<Float>)
    requires factor >= 1 && Positive(x)
    requires high == RollingMax(x, factor)
    requires |dd| == |x|
    requires forall i :: 0 <= i < |x| ==> dd[i] == Relative(x[i], high[i])
    ensures forall i :: 0 <= i < |x| ==> dd[i].Finite? && -1.0 < dd[i].v <= 0.0
  {
    forall i | 0 <= i < |x| ensures dd[i].Finite? && -1.0 < dd[i].v <= 0.0 {
      RelativeBelowLevel(x[i], high[i]);
    }
  }

  lemma PointDrawdownsOfUnitWindow(x: seq<real>, high: seq<real>, dd: seq<Float>)
    requires NonZero(x)
    requires high == RollingMax(x, 1)
    requires |dd| == |x|
    requires forall i :: 0 <= i < |x| ==> dd[i] == Relative(x[i], high[i])
    ensures forall i :: 0 <= i < |x| ==> dd[i] == Finite(0.0)
  {
    UnitRollingMax(x);
    forall i | 0 <= i < |x| ensures dd[i] == Finite(0.0) {
      RelativeAtLevel(x[i]);
    }
  }

  /** With a window of one point, every point is its own window maximum:
      max_drawdown_single is 0 everywhere (for non-zero points). */
  lemma UnitWindowIsZero(rets: seq<real>)
    requires |rets| >= 1 && NonZero(rets[1..])
    ensures MaxDrawdownSingle(rets, 1).Ok?
    ensures forall i :: 0 <= i < |rets| - 1 ==> MaxDrawdownSingle(rets, 1).value[i] == Finite(0.0)
  {
    var x := rets[1..];
    var dd := PointDrawdowns(x, 1);
    var out := RollingNanMin(dd, 1);
    forall i | 0 <= i < |out| ensures out[i] == Finite(0.0) {
      assert WindowStart(i, 1) == i;
      assert Le(out[i], dd[i]);
    }
    assert MaxDrawdownSingle(rets, 1) == Ok(out);
  }

  /** A window covering the whole series makes the rolling maximum the
      running maximum. */
  lemma WideRollingMaxIsRunningMax(x: seq<real>, factor: nat)
    requires factor >= |x| && factor >= 1
    ensures RollingMax(x, factor) == RunningMax(x)
  {
    var a, b := RollingMax(x, factor), RunningMax(x);
    forall i | 0 <= i < |x| ensures a[i] == b[i] {
      assert WindowStart(i, factor) == 0;
      var j :| 0 <= j < i + 1 && 0 <= j < |x| && x[j] == b[i];
      var k :| 0 <= k < i + 1 && 0 <= k < |x| && x[k] == a[i];
      assert x[j] <= a[i];
      assert x[k] <= b[i];
    }
  }

  /** When the window spans the whole series, the last entry of
      max_drawdown_single is max_drawdown of the series without its first
      point. */
  lemma WideWindowIsMaxDrawdown(rets: seq<real>, factor: int)
    requires |rets| >= 2 && factor >= |rets| - 1 && Positive(rets[1..])
    ensures MaxDrawdownSingle(rets, factor).Ok?
    ensures MaxDrawdownSingle(rets, factor).value[|rets| - 2] == MaxDrawdown(rets[1..])
  {
    var x := rets[1..];
    WideRollingMaxIsRunningMax(x, factor);
    var dd := PointDrawdowns(x, factor);
    assert dd == Drawdown(x);
    WholeWindowMinIsNanMin(dd, factor);
    assert MaxDrawdown(x) == NanMin(dd);
    assert MaxDrawdownSingle(rets, factor) == Ok(RollingNanMin(dd, factor));
  }

  /** Over a window spanning a finite, nonempty series, the rolling minimum's
      last entry is the minimum of the whole series. */
  lemma WholeWindowMinIsNanMin(dd: seq<Float>, factor: nat)
    requires |dd| >= 1 && factor >= |dd|
    requires forall i :: 0 <= i < |dd| ==> dd[i].Finite?
    ensures RollingNanMin(dd, factor)[|dd| - 1] == NanMin(dd)
  {
    var n := |dd|;
    var out := RollingNanMin(dd, factor);
    var m := NanMin(dd);
    assert WindowStart(n - 1, factor) == 0;
    assert Le(out[n - 1], dd[0]);
    var k :| 0 <= k < n && dd[k] == out[n - 1];
    assert Le(m, dd[k]);
    var l :| 0 <= l < n && dd[l] == m;
    assert Le(out[n - 1], dd[l]);
    LeAntisymmetric(out[n - 1], m);
  }

}

=== FILE: excess.dfy ===
/** Excess returns against a benchmark and the lower partial moment, on the
    numpy array path: `_reindex_dates`, `log_excess`, `maxzero` and `LPM`.
    Returns may hold NaN (missing) values and infinities. */
module Excess {
  import opened Results
  import opened Floats
  import opened Reductions

  /** A benchmark: one scalar for every date, or a 1-D array. */
  datatype Bench = Scalar(x: Float) | Series(s: seq<Float>)

  predicate HasNaN(b: Bench) {
    match b
    case Scalar(x) => x.NaN?
    case Series(s) => exists k :: 0 <= k < |s| && s[k].NaN?
  }

  /** `np.isnan(result).sum()`: how many benchmark entries are NaN. */
  function NaNCount(b: Bench): nat {
    match b
    case Scalar(x) => if x.NaN? then 1 else 0
    case Series(s) => CountNaN(s)
  }

  /** `_reindex_dates(source, target)` when either side is a plain array:
      the source comes back unchanged once no entry of it is NaN; otherwise
      the assertion fails with the NaN count. The target only matters to
      the pandas reindexing, which is not modelled. */
  function ReindexDates(source: Bench): (r: Result<Bench>)
    ensures r.Ok? <==> !HasNaN(source)
    ensures r.Ok? ==> r.value == source
    ensures r.Err? ==> r.error == UnmatchedDates(NaNCount(source)) && NaNCount(source) >= 1
  {
    var nanCount := NaNCount(source);
    if nanCount == 0 then Ok(source) else Err(UnmatchedDates(nanCount))
  }

  /** numpy broadcasting of a length-n array against the benchmark. */
  predicate Broadcastable(n: nat, b: Bench) {
    b.Scalar? || |b.s| == n || |b.s| == 1 || n == 1
  }

  /** Length of the broadcast result. */
  function BroadcastLength(n: nat, b: Bench): nat
    requires Broadcastable(n, b)
  {
    if b.Scalar? || |b.s| == n || |b.s| == 1 then n else |b.s|
  }

  /** The benchmark value paired with entry i of the broadcast result. */
  function BenchAt(b: Bench, i: nat): Float
    requires b.Series? ==> |b.s| == 1 || i < |b.s|
  {
    if b.Scalar? then b.x else if |b.s| == 1 then b.s[0] else b.s[i]
  }

  /** The return paired with entry i of the broadcast result. */
  function ReturnAt(rtns: seq<Float>, i: nat): Float
    requires |rtns| == 1 || i < |rtns|
  {
    if |rtns| == 1 then rtns[0] else rtns[i]
  }

  /** `log_excess(rtns, bench)` on arrays: `rtns - bench` with numpy
      broadcasting, after the NaN check on the benchmark. */
  function LogExcess(rtns: seq<Float>, bench: Bench): (r: Result<seq<Float>>)
    ensures HasNaN(bench) ==> r == Err(UnmatchedDates(NaNCount(bench)))
    ensures !HasNaN(bench) ==> (r.Ok? <==> Broadcastable(|rtns|, bench))
    ensures r.Err? && !HasNaN(bench) ==> r.error == ShapeMismatch
    ensures r.Ok? ==>
      && |r.value| == BroadcastLength(|rtns|, bench)
      && forall i :: 0 <= i < |r.value| && BenchAt(bench, i).Finite? ==>
           Add(r.value[i], BenchAt(bench, i)) == ReturnAt(rtns, i)
    ensures r.Ok? ==> forall i :: 0 <= i < |r.value| ==>
      r.value[i] == Sub(ReturnAt(rtns, i), BenchAt(bench, i))
  {
    var matched :- ReindexDates(bench);
    var n := |rtns|;
    var out :=
      if matched.Scalar? then Ok(seq(n, i requires 0 <= i < n => Sub(rtns[i], matched.x)))
      else if |matched.s| == n then Ok(seq(n, i requires 0 <= i < n => Sub(rtns[i], matched.s[i])))
      else if |matched.s| == 1 then Ok(seq(n, i requires 0 <= i < n => Sub(rtns[i], matched.s[0])))
      else if n == 1 then Ok(seq(|matched.s|, j requires 0 <= j < |matched.s| => Sub(rtns[0], matched.s[j])))
      else Err(ShapeMismatch);
    assert out.Ok? ==> forall i :: 0 <= i < |out.value| && BenchAt(bench, i).Finite? ==>
      Add(out.value[i], BenchAt(bench, i)) == ReturnAt(rtns, i)
    by {
      if out.Ok? {
        forall i | 0 <= i < |out.value| && BenchAt(bench, i).Finite?
          ensures Add(out.value[i], BenchAt(bench, i)) == ReturnAt(rtns, i)
        {
          assert out.value[i] == Sub(ReturnAt(rtns, i), BenchAt(bench, i));
          SubAddCancel(ReturnAt(rtns, i), BenchAt(bench, i));
        }
      }
    }
    out
  }

  /** `maxzero(x)` = `np.maximum(x, 0)`, which NaN passes through; numpy's
      `clip(min=0)` computes the same thing. */
  function MaxZero(x: Float): (r: Float)
    ensures r.NaN? <==> x.NaN?
    ensures !x.NaN? ==> NonNegative(r) && Le(x, r) && (r == x || r == Finite(0.0))
  {
    match x
    case NaN => NaN
    case NegInf => Finite(0.0)
    case PosInf => PosInf
    case Finite(v) => Finite(if v > 0.0 then v else 0.0)
  }

  /** maxzero is idempotent. */
  lemma MaxZeroIdempotent(x: Float)
    ensures MaxZero(MaxZero(x)) == MaxZero(x)
  {
  }

  /** `LPM(returns, target_rtn, moment)` on arrays: the NaN-skipping mean of
      `max(target - r, 0) ** moment`, the shortfall being
      `-log_excess(returns, target_rtn)`. */
  function LPM(rtns: seq<Float>, target: Bench, moment: nat): (r: Result<Float>)
    ensures r.Ok? <==> LogExcess(rtns, target).Ok?
    ensures r.Err? ==> r.error == LogExcess(rtns, target).error
    ensures r.Ok? ==> r.value.NaN? || NonNegative(r.value)
  {
    var excess :- LogExcess(rtns, target);
    var powered := seq(|excess|, i requires 0 <= i < |excess| => Pow(MaxZero(Neg(excess[i])), moment));
    assert forall i :: 0 <= i < |powered| ==> powered[i].NaN? || NonNegative(powered[i]) by {
      forall i | 0 <= i < |powered| ensures powered[i].NaN? || NonNegative(powered[i]) {
        var c := MaxZero(Neg(excess[i]));
        if c.Finite? && moment > 0 {
          RealPowNonNegative(c.v, moment);
        }
      }
    }
    Ok(NanMean(powered))
  }

  /** Reference definition over the reals: the mean of
      `max(target - r, 0) ** moment` over a non-empty sample. */
  function LowerPartialMoment(rs: seq<real>, target: real, moment: nat): real
    requires |rs| > 0
  {
    Mean(seq(|rs|, i requires 0 <= i < |rs| => RealPow(if target - rs[i] > 0.0 then target - rs[i] else 0.0, moment)))
  }

  /** On finite returns and a finite scalar target, LPM is the lower partial
      moment of the reference definition. */
  lemma LpmIsLowerPartialMoment(rs: seq<real>, target: real, moment: nat)
    requires |rs| > 0
    ensures LPM(seq(|rs|, i requires 0 <= i < |rs| => Finite(rs[i])), Scalar(Finite(target)), moment)
      == Ok(Finite(LowerPartialMoment(rs, target, moment)))
  {
    var rtns := seq(|rs|, i requires 0 <= i < |rs| => Finite(rs[i]));
    var excess := LogExcess(rtns, Scalar(Finite(target))).value;
    var powered := seq(|excess|, i requires 0 <= i < |excess| => Pow(MaxZero(Neg(excess[i])), moment));
    var shortfall := seq(|rs|, i requires 0 <= i < |rs| => RealPow(if target - rs[i] > 0.0 then target - rs[i] else 0.0, moment));
    forall i | 0 <= i < |rs| ensures powered[i] == Finite(shortfall[i]) {
      assert excess[i] == Sub(rtns[i], Finite(target));
    }
    assert Values(powered) == shortfall;
  }

  /** When every return reaches the target, there is no shortfall: LPM of
      any positive moment is 0. */
  lemma LpmZeroAboveTarget(rs: seq<real>, target: real, moment: nat)
    requires |rs| > 0 && moment >= 1
    requires forall k :: 0 <= k < |rs| ==> rs[k] >= target
    ensures LPM(seq(|rs|, i requires 0 <= i < |rs| => Finite(rs[i])), Scalar(Finite(target)), moment)
      == Ok(Finite(0.0))
  {
    LpmIsLowerPartialMoment(rs, target, moment);
    NoShortfall(rs, target, moment);
  }

  lemma NoShortfall(rs: seq<real>, target: real, moment: nat)
    requires |rs| > 0 && moment >= 1
    requires forall k :: 0 <= k < |rs| ==> rs[k] >= target
    ensures LowerPartialMoment(rs, target, moment) == 0.0
  {
    var shortfall := seq(|rs|, i requires 0 <= i < |rs| => RealPow(if target - rs[i] > 0.0 then target - rs[i] else 0.0, moment));
    forall i | 0 <= i < |rs| ensures shortfall[i] == 0.0 {
      RealPowZero(moment);
    }
    assert shortfall == seq(|rs|, k => 0.0);
    RealSumZero(|rs|);
  }

  /** Moment 0 counts every entry, NaN included, since numpy's `x ** 0` is
      1 for every x: LPM of moment 0 is 1 on any non-empty array. */
  lemma LpmMomentZero(rtns: seq<Float>, target: Float)
    requires |rtns| > 0 && !target.NaN?
    ensures LPM(rtns, Scalar(target), 0) == Ok(Finite(1.0))
  {
    var excess := LogExcess(rtns, Scalar(target)).value;
    var powered := seq(|excess|, i requires 0 <= i < |excess| => Pow(MaxZero(Neg(excess[i])), 0));
    assert powered == seq(|rtns|, k => Finite(1.0));
    assert LPM(rtns, Scalar(target), 0) == Ok(NanMean(powered));
    NanMeanOfOnes(|rtns|);
  }

  lemma NanMeanOfOnes(n: nat)
    requires n > 0
    ensures NanMean(seq(n, k => Finite(1.0))) == Finite(1.0)
  {
    var ones := seq(n, k => Finite(1.0));
    assert Values(ones) == seq(n, k => 1.0);
    MeanOfOnes(n);
  }

  /** The NaN check looks at the benchmark only: NaN returns pass through
      into the excess series instead of failing. */
  lemma NaNReturnsPassThrough(rtns: seq<Float>, b: Float, i: nat)
    requires i < |rtns| && rtns[i].NaN? && !b.NaN?
    ensures LogExcess(rtns, Scalar(b)).Ok?
    ensures LogExcess(rtns, Scalar(b)).value[i].NaN?
  {
  }
}

=== FILE: floats.dfy ===
/** IEEE-754 doubles idealised to exact arithmetic: a finite value is a real
    number (no rounding), and the three non-finite values that numpy and
    pandas produce on division by zero are kept. The sign of zero is not
    modelled: a zero divisor is treated as +0. */
module Floats {

  datatype Float = Finite(v: real) | PosInf | NegInf | NaN

  /** The infinity of the given sign. */
  function Inf(positive: bool): Float {
    if positive then PosInf else NegInf
  }

  /** Zero or above, or +inf: what a clipped value or a mean of such values can be. */
  predicate NonNegative(a: Float) {
    a.PosInf? || (a.Finite? && a.v >= 0.0)
  }

  function Neg(a: Float): Float {
    match a
    case Finite(x) => Finite(-x)
    case PosInf => NegInf
    case NegInf => PosInf
    case NaN => NaN
  }

  function Add(a: Float, b: Float): Float {
    match (a, b)
    case (NaN, _) => NaN
    case (_, NaN) => NaN
    case (Finite(x), Finite(y)) => Finite(x + y)
    case (PosInf, NegInf) => NaN
    case (NegInf, PosInf) => NaN
    case (PosInf, _) => PosInf
    case (_, PosInf) => PosInf
    case (NegInf, _) => NegInf
    case (_, NegInf) => NegInf
  }

  function Sub(a: Float, b: Float): Float {
    Add(a, Neg(b))
  }

  function Mul(a: Float, b: Float): Float {
    match (a, b)
    case (NaN, _) => NaN
    case (_, NaN) => NaN
    case (Finite(x), Finite(y)) => Finite(x * y)
    case (Finite(x), _) => if x == 0.0 then NaN else Inf((x > 0.0) == b.PosInf?)
    case (_, Finite(y)) => if y == 0.0 then NaN else Inf(a.PosInf? == (y > 0.0))
    case _ => Inf(a.PosInf? == b.PosInf?)
  }

  function Div(a: Float, b: Float): Float {
    match (a, b)
    case (NaN, _) => NaN
    case (_, NaN) => NaN
    case (Finite(x), Finite(y)) =>
      if y != 0.0 then Finite(x / y)
      else if x == 0.0 then NaN
      else Inf(x > 0.0)
    case (Finite(_), _) => Finite(0.0)
    case (_, Finite(y)) => if y == 0.0 then a else Inf(a.PosInf? == (y > 0.0))
    case _ => NaN
  }

  /** x to the power k over the reals. */
  function RealPow(x: real, k: nat): real {
    if k == 0 then 1.0 else x * RealPow(x, k - 1)
  }

  /** numpy power with a natural exponent: anything to the power 0 is 1,
      NaN included. */
  function Pow(a: Float, k: nat): Float {
    if k == 0 then Finite(1.0)
    else match a
      case Finite(x) => Finite(RealPow(x, k))
      case PosInf => PosInf
      case NegInf => if k % 2 == 1 then NegInf else PosInf
      case NaN => NaN
  }

  /** The order of non-NaN values: -inf below every real below +inf. NaN is
      not ordered against anything. */
  predicate Le(a: Float, b: Float) {
    match (a, b)
    case (NaN, _) => false
    case (_, NaN) => false
    case (NegInf, _) => true
    case (_, PosInf) => true
    case (Finite(x), Finite(y)) => x <= y
    case _ => false
  }

  /** pandas' window functions read an infinity as a missing value. */
  function InfAsNaN(a: Float): Float {
    if a.PosInf? || a.NegInf? then NaN else a
  }

  /** Subtracting then adding back a finite value restores the original,
      whatever it was (NaN and infinities included). */
  lemma SubAddCancel(a: Float, b: Float)
    requires b.Finite?
    ensures Add(Sub(a, b), b) == a
  {
  }

  /** Le is a total preorder on non-NaN values. */
  lemma LeTotal(a: Float, b: Float)
    requires !a.NaN? && !b.NaN?
    ensures Le(a, b) || Le(b, a)
  {
  }

  lemma LeTransitive(a: Float, b: Float, c: Float)
    requires Le(a, b) && Le(b, c)
    ensures Le(a, c)
  {
  }

  lemma LeAntisymmetric(a: Float, b: Float)
    requires Le(a, b) && Le(b, a)
    ensures a == b
  {
  }

  lemma {:induction false} RealPowNonNegative(x: real, k: nat)
    requires x >= 0.0
    ensures RealPow(x, k) >= 0.0
  {
    if k > 0 {
      RealPowNonNegative(x, k - 1);
    }
  }

  lemma {:induction false} RealPowPositive(x: real, k: nat)
    requires x > 0.0
    ensures RealPow(x, k) > 0.0
  {
    if k > 0 {
      RealPowPositive(x, k - 1);
      assert x * RealPow(x, k - 1) > 0.0;
    }
  }

  /** A base of at least 1 grows with every further power. */
  lemma {:induction false} RealPowAtLeastBase(x: real, k: nat)
    requires x >= 1.0 && k >= 1
    ensures RealPow(x, k) >= x
  {
    if k == 1 {
      RealPowOne(x);
    } else {
      RealPowAtLeastBase(x, k - 1);
      assert x * RealPow(x, k - 1) >= x * x >= x;
    }
  }

  lemma RealPowOne(x: real)
    ensures RealPow(x, 1) == x
  {
    assert RealPow(x, 1) == x * RealPow(x, 0);
  }

  lemma {:induction false} RealPowZero(k: nat)
    requires k >= 1
    ensures RealPow(0.0, k) == 0.0
  {
  }

  /** Multiplying powers of one base adds the exponents. */
  lemma {:induction false} RealPowAdd(x: real, a: nat, b: nat)
    ensures RealPow(x, a + b) == RealPow(x, a) * RealPow(x, b)
  {
    if b > 0 {
      RealPowAdd(x, a, b - 1);
      assert RealPow(x, a + b) == x * RealPow(x, a + b - 1);
    }
  }
}

=== FILE: portfolio.dfy ===
/** `compute_eqw`: an equal-weight buy-and-hold portfolio over a T x n
    price matrix (one row per time step, one column per asset). */
module Portfolio {
  import opened Results
  import opened Floats
  import opened Reductions
  import Drawdowns

  /** Cash invested at the first time step. */
  const Capital: real := 1000000.0

  /** The price array is a 2-D numpy array: every row has the same width. */
  predicate IsMatrix(prices: seq<seq<real>>) {
    forall t :: 0 <= t < |prices| ==> |prices[t]| == |prices[0]|
  }

  /** The three series compute_eqw returns, in its order. */
  datatype Eqw = Eqw(accountValue: seq<Float>, stepReturns: seq<Float>, cumReturns: seq<Float>)

  /** Units of each asset bought with an equal share of the capital at the
      initial prices (infinite for a zero price). */
  function Weights(initial: seq<real>): seq<Float> {
    seq(|initial|, i requires 0 <= i < |initial| => Div(Finite(Capital / |initial| as real), Finite(initial[i])))
  }

  /** `np.sum(equal_weight * row)`: the value of the holdings at one row of prices. */
  function Holdings(w: seq<Float>, row: seq<real>): Float
    requires |row| == |w|
  {
    Sum(Positions(w, row))
  }

  /** `equal_weight * row`: the value of each position. */
  function Positions(w: seq<Float>, row: seq<real>): (p: seq<Float>)
    requires |row| == |w|
    ensures |p| == |w|
  {
    seq(|w|, i requires 0 <= i < |w| => Mul(w[i], Finite(row[i])))
  }

  /** How much asset i has grown since the first row. */
  function Relatives(prices: seq<seq<real>>, t: nat): (rel: seq<real>)
    requires IsMatrix(prices) && t < |prices|
    requires Positive(prices[0])
    ensures |rel| == |prices[0]|
  {
    seq(|prices[0]|, i requires 0 <= i < |prices[0]| => prices[t][i] / prices[0][i])
  }

  /** `compute_eqw(price_ary, indx1, indx2)` (the two indices are unused):
      the account value of the equal-weight portfolio at every row, the
      step series `av[:-1] / av[1:] - 1` and the cumulative returns
      `av / av[0] - 1`. An empty price array raises IndexError. */
  function ComputeEqw(prices: seq<seq<real>>): (r: Result<Eqw>)
    requires IsMatrix(prices)
    ensures r.Ok? <==> |prices| > 0
    ensures r.Err? ==> r.error == IndexOutOfBounds
    ensures r.Ok? ==>
      && |r.value.accountValue| == |prices|
      && |r.value.cumReturns| == |prices|
      && |r.value.stepReturns| == |prices| - 1
    ensures r.Ok? && |prices[0]| > 0 && Positive(prices[0]) ==>
      && r.value.accountValue[0] == Finite(Capital)
      && r.value.cumReturns[0] == Finite(0.0)
  {
    if |prices| == 0 then Err(IndexOutOfBounds)
    else
      var av := AccountValues(prices);
      assert |prices[0]| > 0 && Positive(prices[0]) ==> av[0] == Finite(Capital) by {
        if |prices[0]| > 0 && Positive(prices[0]) {
          InitialHoldings(prices);
        }
      }
      assert av[0] == Finite(Capital) ==> CumulativeReturns(av)[0] == Finite(0.0) by {
        assert Div(Finite(Capital), Finite(Capital)) == Finite(1.0);
      }
      Ok(Eqw(av, InvertedSteps(av), CumulativeReturns(av)))
  }

  /** `account_value`: the holdings valued at every row of prices. */
  function AccountValues(prices: seq<seq<real>>): (av: seq<Float>)
    requires IsMatrix(prices) && |prices| > 0
    ensures |av| == |prices|
  {
    seq(|prices|, t requires 0 <= t < |prices| => Holdings(Weights(prices[0]), prices[t]))
  }

  /** `av / av[0] - 1`. */
  function CumulativeReturns(av: seq<Float>): (cum: seq<Float>)
    requires |av| > 0
    ensures |cum| == |av|
  {
    seq(|av|, t requires 0 <= t < |av| => Sub(Div(av[t], av[0]), Finite(1.0)))
  }

  /** `av[:-1] / av[1:] - 1`: each value over the NEXT one. */
  function InvertedSteps(av: seq<Float>): (steps: seq<Float>)
    requires |av| > 0
    ensures |steps| == |av| - 1
  {
    seq(|av| - 1, t requires 0 <= t < |av| - 1 => Sub(Div(av[t], av[t + 1]), Finite(1.0)))
  }

  /** One position: capital/n spent at price p0 is worth capital/n times the
      price relative at price p. */
  lemma PositionValue(w: seq<Float>, row: seq<real>, i: nat, share: real, p0: real, relative: real)
    requires |row| == |w| && i < |w|
    requires p0 > 0.0 && w[i] == Div(Finite(share), Finite(p0))
    requires relative == row[i] / p0
    ensures Positions(w, row)[i] == Finite(share * relative)
  {
    assert share / p0 * row[i] == share * (row[i] / p0);
  }

  /** The portfolio is worth the capital times the average price relative. */
  lemma HoldingsAreCapitalTimesMeanRelative(prices: seq<seq<real>>, t: nat)
    requires IsMatrix(prices) && t < |prices| && |prices[0]| > 0
    requires Positive(prices[0])
    ensures Holdings(Weights(prices[0]), prices[t]) == Finite(Capital * Mean(Relatives(prices, t)))
  {
    var n := |prices[0]|;
    var share := Capital / n as real;
    var rel := Relatives(prices, t);
    var scaled := seq(n, i requires 0 <= i < n => share * rel[i]);
    PositionsAreScaledRelatives(prices, t, share, rel, scaled);
    RealSumScale(share, rel, scaled);
    ShareOfTotal(n, RealSum(rel));
  }

  /** Each position is worth its share of the capital times its relative. */
  lemma PositionsAreScaledRelatives(prices: seq<seq<real>>, t: nat, share: real, rel: seq<real>, scaled: seq<real>)
    requires IsMatrix(prices) && t < |prices| && |prices[0]| > 0
    requires Positive(prices[0])
    requires share == Capital / |prices[0]| as real
    requires rel == Relatives(prices, t)
    requires |scaled| == |prices[0]|
    requires forall i :: 0 <= i < |scaled| ==> scaled[i] == share * rel[i]
    ensures Holdings(Weights(prices[0]), prices[t]) == Finite(RealSum(scaled))
  {
    var w := Weights(prices[0]);
    ScaledPositions(w, prices[t], prices[0], share, rel, scaled);
    SumOfFiniteTerms(Positions(w, prices[t]), scaled);
  }

  lemma ScaledPositions(w: seq<Float>, row: seq<real>, initial: seq<real>, share: real, rel: seq<real>, scaled: seq<real>)
    requires |w| == |row| == |initial| == |rel| == |scaled|
    requires forall i :: 0 <= i < |w| ==> initial[i] > 0.0 && w[i] == Div(Finite(share), Finite(initial[i]))
    requires forall i :: 0 <= i < |w| ==> rel[i] == row[i] / initial[i]
    requires forall i :: 0 <= i < |w| ==> scaled[i] == share * rel[i]
    ensures forall i :: 0 <= i < |w| ==> Positions(w, row)[i] == Finite(scaled[i])
  {
    forall i | 0 <= i < |w| ensures Positions(w, row)[i] == Finite(scaled[i]) {
      PositionValue(w, row, i, share, initial[i], rel[i]);
    }
  }

  lemma ShareOfTotal(n: nat, total: real)
    requires n > 0
    ensures Capital / n as real * total == Capital * (total / n as real)
  {
  }

  lemma SumOfFiniteTerms(terms: seq<Float>, xs: seq<real>)
    requires |terms| == |xs|
    requires forall i :: 0 <= i < |xs| ==> terms[i] == Finite(xs[i])
    ensures Sum(terms) == Finite(RealSum(xs))
  {
    SumOfFinite(terms);
    assert Values(terms) == xs;
  }

  /** At the first row every relative is 1, so the portfolio is worth
      exactly the capital. */
  lemma InitialHoldings(prices: seq<seq<real>>)
    requires IsMatrix(prices) && |prices| > 0 && |prices[0]| > 0
    requires Positive(prices[0])
    ensures Holdings(Weights(prices[0]), prices[0]) == Finite(Capital)
  {
    HoldingsAreCapitalTimesMeanRelative(prices, 0);
    var n := |prices[0]|;
    forall i | 0 <= i < n ensures Relatives(prices, 0)[i] == 1.0 {
      assert prices[0][i] / prices[0][i] == 1.0;
    }
    assert Relatives(prices, 0) == seq(n, k => 1.0);
    MeanOfOnes(n);
  }

  /** With positive initial prices, the account value tracks the average
      price relative, and the cumulative return is that average minus 1. */
  lemma EqwTracksPriceRelatives(prices: seq<seq<real>>)
    requires IsMatrix(prices) && |prices| > 0 && |prices[0]| > 0
    requires Positive(prices[0])
    ensures forall t :: 0 <= t < |prices| ==>
      && ComputeEqw(prices).value.accountValue[t] == Finite(Capital * Mean(Relatives(prices, t)))
      && ComputeEqw(prices).value.cumReturns[t] == Finite(Mean(Relatives(prices, t)) - 1.0)
  {
    var r := ComputeEqw(prices).value;
    forall t | 0 <= t < |prices|
      ensures r.accountValue[t] == Finite(Capital * Mean(Relatives(prices, t)))
      ensures r.cumReturns[t] == Finite(Mean(Relatives(prices, t)) - 1.0)
    {
      HoldingsAreCapitalTimesMeanRelative(prices, t);
      var m := Mean(Relatives(prices, t));
      assert r.accountValue[0] == Finite(Capital);
      assert Capital * m / Capital == m;
    }
  }

  /** The step series as written divides each value by the NEXT one, so
      its entry t is the ratio of average relatives at t and t + 1, minus 1. */
  lemma EqwStepIsInvertedRatio(prices: seq<seq<real>>, t: nat)
    requires IsMatrix(prices) && t + 1 < |prices| && |prices[0]| > 0
    requires Positive(prices[0])
    requires Mean(Relatives(prices, t + 1)) != 0.0
    ensures ComputeEqw(prices).value.stepReturns[t]
         == Finite(Mean(Relatives(prices, t)) / Mean(Relatives(prices, t + 1)) - 1.0)
  {
    EqwSeries(prices);
    StepOfAccountValues(prices, t);
  }

  lemma StepOfAccountValues(prices: seq<seq<real>>, t: nat)
    requires IsMatrix(prices) && t + 1 < |prices| && |prices[0]| > 0
    requires Positive(prices[0])
    requires Mean(Relatives(prices, t + 1)) != 0.0
    ensures InvertedSteps(AccountValues(prices))[t]
         == Finite(Mean(Relatives(prices, t)) / Mean(Relatives(prices, t + 1)) - 1.0)
  {
    var a, b := Mean(Relatives(prices, t)), Mean(Relatives(prices, t + 1));
    HoldingsAreCapitalTimesMeanRelative(prices, t);
    HoldingsAreCapitalTimesMeanRelative(prices, t + 1);
    StepOfScaledValues(AccountValues(prices), t, Capital, a, b);
  }

  /** Entry t of the step series when the values at t and t + 1 share a
      nonzero factor. */
  lemma StepOfScaledValues(av: seq<Float>, t: nat, c: real, a: real, b: real)
    requires t + 1 < |av| && c != 0.0 && b != 0.0
    requires av[t] == Finite(c * a) && av[t + 1] == Finite(c * b)
    ensures InvertedSteps(av)[t] == Finite(a / b - 1.0)
  {
    CancelFactor(c, a, b);
  }

  /** The series compute_eqw builds from the account values. */
  lemma EqwSeries(prices: seq<seq<real>>)
    requires IsMatrix(prices) && |prices| > 0
    ensures ComputeEqw(prices) == Ok(Eqw(AccountValues(prices), InvertedSteps(AccountValues(prices)), CumulativeReturns(AccountValues(prices))))
  {
  }

  lemma CancelFactor(c: real, a: real, b: real)
    requires c != 0.0 && b != 0.0
    ensures Sub(Div(Finite(c * a), Finite(c * b)), Finite(1.0)) == Finite(a / b - 1.0)
  {
    assert c * b != 0.0;
    var q := a / b;
    assert a == q * b;
    assert c * a == q * (c * b);
  }

  lemma DoublingMeans(prices: seq<seq<real>>, p: real)
    requires p > 0.0 && prices == [[p], [2.0 * p]]
    ensures Mean(Relatives(prices, 0)) == 1.0 && Mean(Relatives(prices, 1)) == 2.0
  {
    var r0, r1 := Relatives(prices, 0), Relatives(prices, 1);
    assert r0[0] == p / p == 1.0;
    assert r1[0] == (2.0 * p) / p == 2.0;
    MeanOfSingleton(r0);
    MeanOfSingleton(r1);
  }

  lemma MeanOfSingleton(xs: seq<real>)
    requires |xs| == 1
    ensures Mean(xs) == xs[0]
  {
    assert xs[..|xs| - 1] == [];
    assert RealSum(xs) == xs[0];
  }

  /** For a single asset whose price doubles, the step series reports -50%
      instead of +100%. */
  lemma InvertedStepExample(p: real)
    requires p > 0.0
    ensures ComputeEqw([[p], [2.0 * p]]).Ok?
    ensures ComputeEqw([[p], [2.0 * p]]).value.stepReturns == [Finite(-0.5)]
  {
    var prices := [[p], [2.0 * p]];
    assert IsMatrix(prices) && Positive(prices[0]) && |prices[0]| == 1;
    DoublingMeans(prices, p);
    EqwStepIsInvertedRatio(prices, 0);
    var steps := ComputeEqw(prices).value.stepReturns;
    assert |steps| == 1 && steps[0] == Finite(-0.5);
  }

  /** The evident intent: the return of each step, `av[t+1] / av[t] - 1`. */
  function ForwardStepReturns(av: seq<real>): (steps: seq<real>)
    requires NonZero(av)
    ensures |steps| == if |av| == 0 then 0 else |av| - 1
  {
    if |av| == 0 then []
    else seq(|av| - 1, t requires 0 <= t < |av| - 1 => av[t + 1] / av[t] - 1.0)
  }

  /** Compounding the forward step returns replays the account value
      relative to its start, so drawdown_from_rtns can consume them. */
  lemma ForwardStepsCompound(av: seq<real>, t: nat)
    requires NonZero(av) && t + 1 < |av|
    ensures Drawdowns.CumGrowth(ForwardStepReturns(av))[t] == av[t + 1] / av[0]
  {
    CompoundForward(av, t);
  }

  lemma {:induction false} CompoundForward(av: seq<real>, t: nat)
    requires NonZero(av) && t + 1 < |av|
    ensures Drawdowns.Compound(ForwardStepReturns(av)[..t + 1]) == av[t + 1] / av[0]
  {
    var steps := ForwardStepReturns(av);
    assert steps[..t + 1][..t] == steps[..t];
    var x, y := Drawdowns.Compound(steps[..t]), 1.0 + steps[t];
    assert Drawdowns.Compound(steps[..t + 1]) == x * y;
    if t == 0 {
      assert x == 1.0;
      assert y == av[1] / av[0];
    } else {
      CompoundForward(av, t - 1);
      assert x == av[t] / av[0];
      ChainRatio(av[0], av[t], av[t + 1]);
    }
  }

  lemma ChainRatio(a: real, b: real, c: real)
    requires a != 0.0 && b != 0.0
    ensures (b / a) * (1.0 + (c / b - 1.0)) == c / a
  {
    assert 1.0 + (c / b - 1.0) == c / b;
    assert (b / a) * (c / b) == c / a;
  }

  /** The model's step series is the reciprocal growth of the forward one:
      step t of `InvertedSteps` is `1 / (1 + forward[t]) - 1`. */
  lemma WrittenStepIsReciprocal(av: seq<real>, t: nat)
    requires NonZero(av) && t + 1 < |av|
    ensures InvertedSteps(seq(|av|, i requires 0 <= i < |av| => Finite(av[i])))[t]
            == Finite(1.0 / (1.0 + ForwardStepReturns(av)[t]) - 1.0)
  {
    assert 1.0 + (av[t + 1] / av[t] - 1.0) == av[t + 1] / av[t];
    assert 1.0 / (av[t + 1] / av[t]) == av[t] / av[t + 1];
  }
}

=== FILE: reductions.dfy ===
/** The numpy and pandas reductions the metrics are built from: maxima and
    minima over windows, sums and NaN-skipping means. */
module Reductions {
  import opened Floats

  /** Every entry is strictly positive (prices, equity). */
  predicate Positive(s: seq<real>) {
    forall k :: 0 <= k < |s| ==> s[k] > 0.0
  }

  /** No entry is zero, so every ratio by an entry is defined. */
  predicate NonZero(s: seq<real>) {
    forall k :: 0 <= k < |s| ==> s[k] != 0.0
  }

  predicate NonDecreasing(s: seq<real>) {
    forall i, j :: 0 <= i <= j < |s| ==> s[i] <= s[j]
  }

  /** `v` is one of `s[lo..hi]`. */
  predicate Occurs<T(==)>(s: seq<T>, lo: int, hi: int, v: T) {
    exists j :: lo <= j < hi && 0 <= j < |s| && s[j] == v
  }

  /** Largest element of the non-empty range `s[lo..hi]`. */
  function MaxIn(s: seq<real>, lo: nat, hi: nat): (r: real)
    requires lo < hi <= |s|
    ensures forall j :: lo <= j < hi ==> s[j] <= r
    ensures Occurs(s, lo, hi, r)
    decreases hi - lo
  {
    if hi == lo + 1 then s[lo]
    else
      var rest := MaxIn(s, lo, hi - 1);
      if s[hi - 1] >= rest then s[hi - 1] else rest
  }

  /** First index of the trailing window of width `w` that ends at `i`;
      windows at the start are partial (pandas min_periods = 1). */
  function WindowStart(i: nat, w: nat): (lo: nat)
    requires w >= 1
    ensures lo <= i && i + 1 - lo <= w
    ensures i + 1 - lo == w || lo == 0
  {
    if i + 1 >= w then i + 1 - w else 0
  }

  /** pandas `expanding().max()`: entry i is the largest of `s[0..i]`. */
  function RunningMax(s: seq<real>): (r: seq<real>)
    ensures |r| == |s|
    ensures forall i, j :: 0 <= j <= i < |s| ==> s[j] <= r[i]
    ensures forall i :: 0 <= i < |s| ==> Occurs(s, 0, i + 1, r[i])
  {
    seq(|s|, i requires 0 <= i < |s| => MaxIn(s, 0, i + 1))
  }

  /** The running maximum never decreases. */
  lemma RunningMaxMonotone(s: seq<real>)
    ensures forall i, j :: 0 <= i <= j < |s| ==> RunningMax(s)[i] <= RunningMax(s)[j]
  {
    var r := RunningMax(s);
    forall i, j | 0 <= i <= j < |s| ensures r[i] <= r[j] {
      var k :| 0 <= k < i + 1 && 0 <= k < |s| && s[k] == r[i];
    }
  }

  /** pandas `rolling(w, min_periods=1).max()`: entry i is the largest
      value of the trailing window of width `w` ending at i. */
  function RollingMax(s: seq<real>, w: nat): (r: seq<real>)
    requires w >= 1
    ensures |r| == |s|
    ensures forall i, j :: 0 <= i < |s| && WindowStart(i, w) <= j <= i ==> s[j] <= r[i]
    ensures forall i :: 0 <= i < |s| ==> Occurs(s, WindowStart(i, w), i + 1, r[i])
  {
    seq(|s|, i requires 0 <= i < |s| => MaxIn(s, WindowStart(i, w), i + 1))
  }

  /** A window of one point is the point itself. */
  lemma UnitRollingMax(s: seq<real>)
    ensures RollingMax(s, 1) == s
  {
    var r := RollingMax(s, 1);
    forall i | 0 <= i < |s| ensures r[i] == s[i] {
      assert WindowStart(i, 1) == i;
      assert s[i] <= r[i];
    }
  }

  /** The smaller of two values, skipping NaN as pandas and numpy nanmin do. */
  function NanMin2(a: Float, b: Float): Float {
    if a.NaN? then b
    else if b.NaN? then a
    else if Le(a, b) then a
    else b
  }

  /** Taking NanMin2 with a new value keeps a lower bound on a range. */
  lemma NanMin2Bound(a: Float, rest: Float, s: seq<Float>, lo: nat, hi: nat)
    requires lo <= hi <= |s|
    requires forall j :: lo <= j < hi && !s[j].NaN? ==> Le(rest, s[j])
    ensures forall j :: lo <= j < hi && !s[j].NaN? ==> Le(NanMin2(a, rest), s[j])
    ensures !a.NaN? ==> Le(NanMin2(a, rest), a)
  {
    if !a.NaN? && !rest.NaN? {
      LeTotal(a, rest);
      forall j | lo <= j < hi && !s[j].NaN? ensures Le(NanMin2(a, rest), s[j]) {
        if Le(a, rest) {
          LeTransitive(a, rest, s[j]);
        }
      }
    }
  }

  /** The least non-NaN element of `s[lo..hi]`, or NaN when there is none. */
  function NanMinIn(s: seq<Float>, lo: nat, hi: nat): (r: Float)
    requires lo <= hi <= |s|
    ensures r.NaN? <==> forall j :: lo <= j < hi ==> s[j].NaN?
    ensures !r.NaN? ==> Occurs(s, lo, hi, r)
    ensures forall j :: lo <= j < hi && !s[j].NaN? ==> Le(r, s[j])
    decreases hi - lo
  {
    if lo == hi then NaN
    else
      var rest := NanMinIn(s, lo, hi - 1);
      NanMin2Bound(s[hi - 1], rest, s, lo, hi - 1);
      NanMin2(s[hi - 1], rest)
  }

  /** numpy `nanmin` / pandas `min()` with skipna: the least non-NaN
      element, or NaN when there is none (an empty sequence included). */
  function NanMin(s: seq<Float>): (r: Float)
    ensures r.NaN? <==> forall k :: 0 <= k < |s| ==> s[k].NaN?
    ensures !r.NaN? ==> r in s
    ensures forall k :: 0 <= k < |s| && !s[k].NaN? ==> Le(r, s[k])
  {
    NanMinIn(s, 0, |s|)
  }

  /** pandas' window functions read infinities as missing values. */
  function InfsAsNaN(s: seq<Float>): (c: seq<Float>)
    ensures |c| == |s|
    ensures forall k :: 0 <= k < |s| ==> (c[k].NaN? <==> !s[k].Finite?)
    ensures forall k :: 0 <= k < |s| && s[k].Finite? ==> c[k] == s[k]
  {
    seq(|s|, k requires 0 <= k < |s| => InfAsNaN(s[k]))
  }

  /** pandas `rolling(w, min_periods=1).min()`: infinities are read as
      missing, and entry i is the least non-missing value of the trailing
      window, or NaN when the window holds none. */
  function RollingNanMin(s: seq<Float>, w: nat): (r: seq<Float>)
    requires w >= 1
    ensures |r| == |s|
    ensures forall i, j :: 0 <= i < |s| && WindowStart(i, w) <= j <= i && s[j].Finite? ==> Le(r[i], s[j])
    ensures forall i :: 0 <= i < |s| ==>
      r[i].NaN? || (r[i].Finite? && Occurs(s, WindowStart(i, w), i + 1, r[i]))
  {
    var c := InfsAsNaN(s);
    seq(|s|, i requires 0 <= i < |s| => NanMinIn(c, WindowStart(i, w), i + 1))
  }

  /** Sum over the reals. */
  function RealSum(xs: seq<real>): real {
    if |xs| == 0 then 0.0 else RealSum(xs[..|xs| - 1]) + xs[|xs| - 1]
  }

  /** numpy `sum` over doubles: NaN and opposite infinities poison it. */
  function Sum(s: seq<Float>): Float {
    if |s| == 0 then Finite(0.0) else Add(Sum(s[..|s| - 1]), s[|s| - 1])
  }

  /** Arithmetic mean of a non-empty sample. */
  function Mean(xs: seq<real>): real
    requires |xs| > 0
  {
    RealSum(xs) / |xs| as real
  }

  /** A constant factor comes out of a sum. */
  lemma {:induction false} RealSumScale(c: real, xs: seq<real>, ys: seq<real>)
    requires |ys| == |xs|
    requires forall i :: 0 <= i < |xs| ==> ys[i] == c * xs[i]
    ensures RealSum(ys) == c * RealSum(xs)
  {
    if |xs| > 0 {
      var n := |xs| - 1;
      RealSumScale(c, xs[..n], ys[..n]);
      var s0, x := RealSum(xs[..n]), xs[n];
      assert RealSum(ys) == c * s0 + c * x;
      assert RealSum(xs) == s0 + x;
      assert c * (s0 + x) == c * s0 + c * x;
    }
  }

  lemma {:induction false} RealSumOnes(n: nat)
    ensures RealSum(seq(n, k => 1.0)) == n as real
  {
    if n > 0 {
      RealSumOnes(n - 1);
      assert seq(n, k => 1.0)[..n - 1] == seq(n - 1, k => 1.0);
    }
  }

  /** The mean of a sample of ones is 1. */
  lemma MeanOfOnes(n: nat)
    requires n > 0
    ensures Mean(seq(n, k => 1.0)) == 1.0
  {
    RealSumOnes(n);
  }

  /** The values of a sequence of finite Floats. */
  function Values(s: seq<Float>): (xs: seq<real>)
    requires forall k :: 0 <= k < |s| ==> s[k].Finite?
    ensures |xs| == |s|
    ensures forall k :: 0 <= k < |s| ==> s[k] == Finite(xs[k])
  {
    seq(|s|, k requires 0 <= k < |s| => s[k].v)
  }

  /** Over finite values, numpy's sum is the real sum. */
  lemma {:induction false} SumOfFinite(s: seq<Float>)
    requires forall k :: 0 <= k < |s| ==> s[k].Finite?
    ensures Sum(s) == Finite(RealSum(Values(s)))
  {
    if |s| > 0 {
      var init := s[..|s| - 1];
      SumOfFinite(init);
      assert Values(init) == Values(s)[..|s| - 1];
    }
  }

  /** A sum of non-negative values (+inf included) is non-negative. */
  lemma {:induction false} SumNonNegative(s: seq<Float>)
    requires forall k :: 0 <= k < |s| ==> NonNegative(s[k])
    ensures NonNegative(Sum(s))
  {
    if |s| > 0 {
      SumNonNegative(s[..|s| - 1]);
    }
  }

  /** Number of NaN elements. */
  function CountNaN(s: seq<Float>): (n: nat)
    ensures n <= |s|
    ensures n == 0 <==> forall k :: 0 <= k < |s| ==> !s[k].NaN?
    ensures n == |s| <==> forall k :: 0 <= k < |s| ==> s[k].NaN?
  {
    if |s| == 0 then 0
    else
      var init := s[..|s| - 1];
      assert forall k :: 0 <= k < |s| - 1 ==> init[k] == s[k];
      CountNaN(init) + (if s[|s| - 1].NaN? then 1 else 0)
  }

  /** Counting NaN entries is additive over concatenation, so with its
      values at single entries it is the number of NaN entries. */
  lemma {:induction false} CountNaNAppend(a: seq<Float>, b: seq<Float>)
    ensures CountNaN(a + b) == CountNaN(a) + CountNaN(b)
  {
    if |b| == 0 {
      assert a + b == a;
    } else {
      var n := |b| - 1;
      CountNaNAppend(a, b[..n]);
      assert (a + b)[..|a + b| - 1] == a + b[..n];
      assert (a + b)[|a + b| - 1] == b[n];
    }
  }

  /** The non-missing sample: the values of the non-NaN entries, in order. */
  function Present(s: seq<Float>): seq<real>
    requires forall k :: 0 <= k < |s| ==> !s[k].PosInf? && !s[k].NegInf?
  {
    if |s| == 0 then []
    else
      var init := Present(s[..|s| - 1]);
      if s[|s| - 1].NaN? then init else init + [s[|s| - 1].v]
  }

  /** The non-missing sample has one value per non-NaN entry. */
  lemma {:induction false} PresentLength(s: seq<Float>)
    requires forall k :: 0 <= k < |s| ==> !s[k].PosInf? && !s[k].NegInf?
    ensures |Present(s)| == |s| - CountNaN(s)
  {
    if |s| > 0 {
      var init := s[..|s| - 1];
      assert forall k :: 0 <= k < |init| ==> init[k] == s[k];
      PresentLength(init);
    }
  }

  /** The last entry joins the non-missing sample unless it is NaN. */
  lemma PresentSnoc(s: seq<Float>)
    requires |s| > 0
    requires forall k :: 0 <= k < |s| ==> !s[k].PosInf? && !s[k].NegInf?
    ensures Present(s) == if s[|s| - 1].NaN? then Present(s[..|s| - 1]) else Present(s[..|s| - 1]) + [s[|s| - 1].v]
  {
  }

  lemma RealSumAppend(xs: seq<real>, x: real)
    ensures RealSum(xs + [x]) == RealSum(xs) + x
  {
    assert (xs + [x])[..|xs|] == xs;
  }

  /** Zero-filling the NaN entries sums to the sum of the non-missing sample. */
  lemma SumOfPresent(s: seq<Float>, filled: seq<Float>)
    requires |filled| == |s|
    requires forall k :: 0 <= k < |s| ==> !s[k].PosInf? && !s[k].NegInf?
    requires forall k :: 0 <= k < |s| ==> filled[k] == if s[k].NaN? then Finite(0.0) else s[k]
    ensures Sum(filled) == Finite(RealSum(Present(s)))
  {
    SumOfFinite(filled);
    var xs := Values(filled);
    assert forall k :: 0 <= k < |s| ==> xs[k] == if s[k].NaN? then 0.0 else s[k].v;
    ZeroFilledSum(s, xs);
  }

  /** The same over the reals: a NaN entry contributes 0 to the sum. */
  lemma {:induction false} ZeroFilledSum(s: seq<Float>, xs: seq<real>)
    requires |xs| == |s|
    requires forall k :: 0 <= k < |s| ==> !s[k].PosInf? && !s[k].NegInf?
    requires forall k :: 0 <= k < |s| ==> xs[k] == if s[k].NaN? then 0.0 else s[k].v
    ensures RealSum(xs) == RealSum(Present(s))
  {
    if |s| > 0 {
      var n := |s| - 1;
      var si, xi := s[..n], xs[..n];
      assert forall k :: 0 <= k < n ==> si[k] == s[k] && xi[k] == xs[k];
      ZeroFilledSum(si, xi);
      PresentSnoc(s);
      assert RealSum(xs) == RealSum(xi) + xs[n];
      if !s[n].NaN? {
        RealSumAppend(Present(si), s[n].v);
      }
    }
  }

  /** numpy `nanmean`: NaN entries are replaced by 0 and the sum is divided
      by the number of non-NaN entries, which makes an all-NaN (or empty)
      input NaN. */
  function NanMean(s: seq<Float>): (r: Float)
    ensures (forall k :: 0 <= k < |s| ==> s[k].NaN?) ==> r.NaN?
    ensures (forall k :: 0 <= k < |s| ==> s[k].NaN? || NonNegative(s[k])) ==> r.NaN? || NonNegative(r)
    ensures |s| > 0 && (forall k :: 0 <= k < |s| ==> s[k].Finite?) ==> r == Finite(Mean(Values(s)))
    ensures (forall k :: 0 <= k < |s| ==> !s[k].PosInf? && !s[k].NegInf?) && |Present(s)| > 0 ==>
      r == Finite(Mean(Present(s)))
  {
    var filled := seq(|s|, k requires 0 <= k < |s| => if s[k].NaN? then Finite(0.0) else s[k]);
    var present := |s| - CountNaN(s);
    assert (forall k :: 0 <= k < |s| ==> s[k].NaN?) ==> Sum(filled) == Finite(0.0) by {
      if forall k :: 0 <= k < |s| ==> s[k].NaN? {
        AllMissingSumsToZero(s, filled);
      }
    }
    assert (forall k :: 0 <= k < |s| ==> s[k].NaN? || NonNegative(s[k])) ==>
      var r := Div(Sum(filled), Finite(present as real));
      r.NaN? || NonNegative(r)
    by {
      if forall k :: 0 <= k < |s| ==> s[k].NaN? || NonNegative(s[k]) {
        NonNegativeMean(s, filled, present);
      }
    }
    assert |s| > 0 && (forall k :: 0 <= k < |s| ==> s[k].Finite?) ==>
      Div(Sum(filled), Finite(present as real)) == Finite(Mean(Values(s)))
    by {
      if |s| > 0 && forall k :: 0 <= k < |s| ==> s[k].Finite? {
        NoneMissingIsMean(s, filled, present);
      }
    }
    assert (forall k :: 0 <= k < |s| ==> !s[k].PosInf? && !s[k].NegInf?) && |Present(s)| > 0 ==>
      Div(Sum(filled), Finite(present as real)) == Finite(Mean(Present(s)))
    by {
      if (forall k :: 0 <= k < |s| ==> !s[k].PosInf? && !s[k].NegInf?) && |Present(s)| > 0 {
        PresentMean(s, filled, present);
      }
    }
    Div(Sum(filled), Finite(present as real))
  }

  lemma NonNegativeMean(s: seq<Float>, filled: seq<Float>, present: nat)
    requires |filled| == |s|
    requires forall k :: 0 <= k < |s| ==> filled[k] == if s[k].NaN? then Finite(0.0) else s[k]
    requires forall k :: 0 <= k < |s| ==> s[k].NaN? || NonNegative(s[k])
    ensures Div(Sum(filled), Finite(present as real)).NaN? || NonNegative(Div(Sum(filled), Finite(present as real)))
  {
    SumNonNegative(filled);
    var total := Sum(filled);
    if total.Finite? && present > 0 {
      assert total.v / present as real >= 0.0;
    }
  }

  lemma AllMissingSumsToZero(s: seq<Float>, filled: seq<Float>)
    requires |filled| == |s|
    requires forall k :: 0 <= k < |s| ==> s[k].NaN? && filled[k] == Finite(0.0)
    ensures Sum(filled) == Finite(0.0)
  {
    SumOfFinite(filled);
    assert Values(filled) == seq(|s|, k => 0.0);
    RealSumZero(|s|);
  }

  lemma NoneMissingIsMean(s: seq<Float>, filled: seq<Float>, present: nat)
    requires |s| > 0 && |filled| == |s|
    requires forall k :: 0 <= k < |s| ==> s[k].Finite? && filled[k] == s[k]
    requires present == |s| - CountNaN(s)
    ensures Div(Sum(filled), Finite(present as real)) == Finite(Mean(Values(s)))
  {
    assert filled == s;
    SumOfFinite(s);
  }

  lemma PresentMean(s: seq<Float>, filled: seq<Float>, present: nat)
    requires |filled| == |s|
    requires forall k :: 0 <= k < |s| ==> !s[k].PosInf? && !s[k].NegInf?
    requires forall k :: 0 <= k < |s| ==> filled[k] == if s[k].NaN? then Finite(0.0) else s[k]
    requires present == |s| - CountNaN(s) && |Present(s)| > 0
    ensures Div(Sum(filled), Finite(present as real)) == Finite(Mean(Present(s)))
  {
    PresentLength(s);
    SumOfPresent(s, filled);
  }

  lemma {:induction false} RealSumZero(n: nat)
    ensures RealSum(seq(n, k => 0.0)) == 0.0
  {
    if n > 0 {
      RealSumZero(n - 1);
      assert seq(n, k => 0.0)[..n - 1] == seq(n - 1, k => 0.0);
    }
  }
}

=== FILE: results.dfy ===
/** Outcomes of the metric functions: a value, or the Python exception the
    function raises instead. Failure-compatible, so `:-` propagates errors. */
module Results {

  /** The exceptions raised by the modelled functions. */
  datatype Error =
    | UnsupportedTimeframe          // ValueError of compute_data_points_per_year
    | UnmatchedDates(nanCount: nat) // AssertionError of _reindex_dates, with its NaN count
    | ShapeMismatch                 // numpy cannot broadcast two 1-D arrays together
    | IndexOutOfBounds              // IndexError on an empty array
    | InvalidWindow                 // pandas rejects a rolling window below min_periods = 1
    | ZeroDivision                  // ZeroDivisionError of Python float division

  datatype Result<+T> = Ok(value: T) | Err(error: Error) {

    predicate IsFailure() {
      Err?
    }

    function PropagateFailure<U>(): Result<U>
      requires Err?
    {
      Err(error)
    }

    function Extract(): T
      requires Ok?
    {
      value
    }
  }

  datatype Option<+T> = None | Some(value: T)
}

=== FILE: timeframes.dfy ===
/** `compute_data_points_per_year`: the number of bars a 365-day year holds
    for each supported bar length. */
module Timeframes {
  import opened Results

  /** Minutes in a year of 365 days. */
  const MinutesPerYear: nat := 60 * 24 * 365

  /** The bar lengths the function accepts. */
  const Supported: set<string> := {"1m", "5m", "10m", "30m", "1h", "1d"}

  predicate IsDigit(c: char) {
    '0' <= c <= '9'
  }

  /** Value of a string of decimal digits. */
  function DigitsValue(s: string): nat
    requires forall k :: 0 <= k < |s| ==> IsDigit(s[k])
  {
    if |s| == 0 then 0
    else
      assert IsDigit(s[|s| - 1]);
      10 * DigitsValue(s[..|s| - 1]) + (s[|s| - 1] as int - '0' as int)
  }

  /** Reads a timeframe label as a count of minutes, hours or days
      (`<digits><m|h|d>`) and returns its length in minutes. This is a
      reading of the labels independent of the lookup table below. */
  function BarMinutes(tf: string): Option<nat> {
    if |tf| < 2 then None
    else
      var digits, unit := tf[..|tf| - 1], tf[|tf| - 1];
      if !(forall k :: 0 <= k < |digits| ==> IsDigit(digits[k])) then None
      else if unit == 'm' then Some(DigitsValue(digits))
      else if unit == 'h' then Some(60 * DigitsValue(digits))
      else if unit == 'd' then Some(24 * 60 * DigitsValue(digits))
      else None
  }

  /** The supported labels read as the bar lengths they name. */
  lemma BarMinutesOfSupported()
    ensures BarMinutes("1m") == Some(1)
    ensures BarMinutes("5m") == Some(5)
    ensures BarMinutes("10m") == Some(10)
    ensures BarMinutes("30m") == Some(30)
    ensures BarMinutes("1h") == Some(60)
    ensures BarMinutes("1d") == Some(1440)
  {
    assert "1m"[..1] == "1" && "5m"[..1] == "5" && "1h"[..1] == "1" && "1d"[..1] == "1";
    assert "10m"[..2] == "10" && "30m"[..2] == "30";
    assert "10"[..1] == "1" && "30"[..1] == "3";
    assert "1"[..0] == "" && "3"[..0] == "" && "5"[..0] == "";
  }

  /** `compute_data_points_per_year(timeframe)`: bars per year for a
      supported label, ValueError for any other string. */
  function DataPointsPerYear(tf: string): (r: Result<nat>)
    ensures r.Ok? <==> tf in Supported
    ensures r.Err? ==> r.error == UnsupportedTimeframe
    ensures r.Ok? ==> BarMinutes(tf).Some? && r.value * BarMinutes(tf).value == MinutesPerYear
  {
    BarMinutesOfSupported();
    if tf == "1m" then Ok(60 * 24 * 365)
    else if tf == "5m" then Ok(12 * 24 * 365)
    else if tf == "10m" then Ok(6 * 24 * 365)
    else if tf == "30m" then Ok(2 * 24 * 365)
    else if tf == "1h" then Ok(24 * 365)
    else if tf == "1d" then Ok(365)
    else Err(UnsupportedTimeframe)
  }

  /** The table's values, as numbers. */
  lemma DataPointsPerYearTable()
    ensures DataPointsPerYear("1m") == Ok(525600)
    ensures DataPointsPerYear("5m") == Ok(105120)
    ensures DataPointsPerYear("10m") == Ok(52560)
    ensures DataPointsPerYear("30m") == Ok(17520)
    ensures DataPointsPerYear("1h") == Ok(8760)
    ensures DataPointsPerYear("1d") == Ok(365)
    ensures DataPointsPerYear("15m") == Err(UnsupportedTimeframe)
    ensures DataPointsPerYear("1H") == Err(UnsupportedTimeframe)
    ensures DataPointsPerYear("") == Err(UnsupportedTimeframe)
  {
  }
}
